=== FILE: README.md ===
# Brewery finder: store, requests and view decisions in Dafny

This project models the logic core of a small brewery-finder web app, a
React/Redux client of a public brewery directory. The model covers the
following:

- **The store.** The brewery slice's state record, its five plain
  reducers (`setFilters`, `setUserLocation`, `setCurrentPage`,
  `clearError`, `clearSuggestions`) and the pending, fulfilled and
  rejected cases of its five request workflows. The reducer is the pure
  step function `BrewerySlice.Reduce`. A request's result enters as an
  input value: the `Http` response or the settled `Outcome`.
- **The request thunks.** For `fetchBreweries`, `fetchBreweriesWithFilters`,
  `fetchBreweryById`, `fetchRandomBrewery` and `fetchSuggestions`, the
  model covers:
  - the URL each builds;
  - the distance annotation of a filtered listing;
  - the "within ten miles, else anything" random pick;
  - the short-query exit of the suggestions request.
- **The orchestration.** The app shell's location and filter effects, the
  filter panel's payloads and distance select, and the search box's
  local state machine.
- **The derived views.** The page count, the page of twelve cards, the
  pager's row of page buttons and `...` markers, the results panel's
  precedence, the card, the detail modal and the random-discovery panel.
  This includes the badge text and colours and the maps link.

One module stands for each source file, plus three helper modules:

| module | stands for |
|---|---|
| `Wrappers` | `Option` |
| `Text` | decimal rendering, JavaScript string length, ASCII case, `String.prototype.replace` with a character |
| `Uri` | `encodeURIComponent`, its decoding, and query strings |
| `Types` | `src/types/brewery.ts` |
| `BreweryRequests` | the thunks of `src/store/slices/brewerySlice.ts` |
| `BrewerySlice` | the state, reducers and extra reducers of the same file |
| `App` | `src/App.tsx` |
| `Filters`, `SearchBar`, `Pagination`, `BreweryList`, `BreweryCard`, `BreweryModal`, `RandomBrewery` | the components of the same names |

Four stand-ins replace behaviour the model cannot interpret:

- **Platform functions.** `parseFloat`, `haversineDistance` and the
  rendering of a number in a template literal are the function-typed
  fields of `Types.Platform`. They are passed in and not interpreted;
  the one thing assumed of them is that a rendered number holds no `&`
  (`BreweryRequests.NumbersArePlain`), and only where a URL is read back.
- **Randomness.** `Math.random()` is a caller-supplied draw `r` in
  `[0, 1)`.
- **The network.** The response is a parameter.
- **Strings.** A string is a sequence of characters. JavaScript's
  `length` is modelled as UTF-16 code units (`Text.Utf16Length`).

## Model

| member | source | states |
|---|---|---|
| BrewerySlice.PageCount | src/store/slices/brewerySlice.ts:222-224 | `ceil(n / 12)`: the fewest pages of twelve that hold `n` records, 0 exactly for an empty list |
| BrewerySlice.Merge | src/store/slices/brewerySlice.ts:194 | the spread leaves the filters unchanged exactly when every field the payload mentions already holds the payload's value |
| BrewerySlice.MergeLaws | src/store/slices/brewerySlice.ts:193-196 | spreading a partial filter set: the empty patch changes nothing, a full patch replaces everything, two spreads equal one combined spread, and spreading the same patch again is idempotent |
| BrewerySlice.MergeFields | src/store/slices/brewerySlice.ts:193-196 | for each of the five fields (search, city, state, distance, type), a field the payload mentions takes the payload's value and every other field keeps its value |
| BrewerySlice.SetFiltersResetsPage | src/store/slices/brewerySlice.ts:193-196 | `setFilters` merges the patch and always returns to page 1, whatever the page was; every other field of the state is unchanged |
| BrewerySlice.PlainReducers | src/store/slices/brewerySlice.ts:197-208 | `setUserLocation`, `setCurrentPage`, `clearError` and `clearSuggestions` each write their one field and nothing else; the page is stored as given, without clamping |
| BrewerySlice.Reduce | src/store/slices/brewerySlice.ts:192-279 | each field has its own writers: the filters change only by `setFilters`, the location only by `setUserLocation`, the page only by `setFilters`, `setCurrentPage` or a filtered listing, the lists and page count only by a listing, the selection only by a detail, the pick only by a random fulfilment, and the suggestions only by their clear, fulfilment or rejection |
| BrewerySlice.ErrorText | src/store/slices/brewerySlice.ts:228 | `message \|\| fallback`: an absent or empty message gives the fixed fallback |
| BrewerySlice.OnPending | src/store/slices/brewerySlice.ts:214-217 | the list and detail workflows set `loading` and clear the error; the random and suggestions workflows have no pending case and change nothing |
| BrewerySlice.OnListFulfilled | src/store/slices/brewerySlice.ts:218-244 | both lists take the payload, `totalPages` is its page count and loading ends; only the filtered variant resets the page to 1; error, filters, suggestions and picks are untouched |
| BrewerySlice.OnRejected | src/store/slices/brewerySlice.ts:226-278 | list and detail rejections end loading and set the message or their fallback; a random rejection sets the error and leaves `loading`; a suggestions rejection only empties the suggestions; the lists and paging are untouched |
| BrewerySlice.ReducePreservesInv | src/store/slices/brewerySlice.ts:192-279 | every action keeps both lists equal and `totalPages` equal to the list's page count, apart from the initial single page over an empty list |
| BrewerySlice.ReduceAllPreservesInv | src/store/slices/brewerySlice.ts:192-279 | any sequence of actions from a state satisfying the invariant ends in one that satisfies it |
| BrewerySlice.InitSatisfiesInv | src/store/slices/brewerySlice.ts:26-45 | the initial state satisfies the invariant, is not loading, has no error and is on page 1 |
| BrewerySlice.LoadingMovesOnlyWithTrackedWorkflows | src/store/slices/brewerySlice.ts:211-279 | only a pending, fulfilled or rejected list or detail action changes `loading` |
| BrewerySlice.ErrorMovesOnlyWithRejections | src/store/slices/brewerySlice.ts:192-279 | an error is set only by a non-suggestions rejection, and cleared only by `clearError` or a pending list or detail request |
| BrewerySlice.ListLifecycle | src/store/slices/brewerySlice.ts:214-248 | a listing request, from pending to settlement: loading is over; on success the payload is in both lists with its page count and no error; on failure the old list stays and the error is the message or "Failed to fetch breweries" |
| BrewerySlice.FetchBreweriesEndToEnd | src/store/slices/brewerySlice.ts:66-72 | a successful `fetchBreweries` puts exactly the response's records, without distances, in the list; a non-ok response keeps the list and reports the fixed message |
| BrewerySlice.DetailLifecycle | src/store/slices/brewerySlice.ts:251-262 | a detail request selects the record and ends loading with no error, or keeps the selection and sets the message or "Failed to fetch brewery details" |
| BrewerySlice.RandomLifecycle | src/store/slices/brewerySlice.ts:265-270 | a random request changes only the pick, on success, or only the error, set to the message or its fallback, on failure; `loading` and everything else stay as they were |
| BrewerySlice.SuggestionsLifecycle | src/store/slices/brewerySlice.ts:273-278 | a suggestions request changes only the suggestions: the payload, or an empty list on failure; `loading`, the error and everything else stay as they were |
| BreweryRequests.KeyNameInjective | src/store/slices/brewerySlice.ts:59-64 | distinct query keys have distinct names |
| BreweryRequests.PresentInOrder | src/store/slices/brewerySlice.ts:59-64 | the appended parameters are in the fixed key order, each key at most once |
| BreweryRequests.LookupPresent | src/store/slices/brewerySlice.ts:59-64 | reading a key back from the appended parameters finds the value of that key's slot, or nothing if the slot was skipped |
| BreweryRequests.EncodedText | src/store/slices/brewerySlice.ts:61-64 | a text filter contributes `encodeURIComponent(v)` exactly when `v` is truthy, and that text is non-empty and free of `&` |
| BreweryRequests.BreweriesQuery | src/store/slices/brewerySlice.ts:57-64 | the query starts with `page` and `per_page`, defaulting to 1 and 200, and keeps the key order with values free of `&` |
| BreweryRequests.BreweriesUrl | src/store/slices/brewerySlice.ts:59-64 | the `fetchBreweries` URL's query parses back into exactly the listing parameters, in order |
| BreweryRequests.BreweriesReadBack | src/store/slices/brewerySlice.ts:57-64 | reading the `fetchBreweries` URL back gives `page` and `per_page` in decimal, each text filter encoded exactly when truthy, and never `by_distance` |
| BreweryRequests.DistanceText | src/store/slices/brewerySlice.ts:87-88 | `by_distance` carries `lat,lon` exactly when the distance filter is truthy |
| BreweryRequests.FilteredQuery | src/store/slices/brewerySlice.ts:82-90 | the filtered query starts with `per_page=200`, has no `page`, and keeps the key order name, city, state, distance, type |
| BreweryRequests.FilteredUrl | src/store/slices/brewerySlice.ts:82-90 | the filtered URL's query parses back into exactly the filtered parameters, in order, when the location renders without `&` |
| BreweryRequests.FilteredReadBack | src/store/slices/brewerySlice.ts:82-90 | reading the filtered URL back gives no `page`, `per_page` 200, each text filter encoded exactly when truthy, and the location text under `by_distance` exactly when the distance is truthy |
| BreweryRequests.ByIdUrl | src/store/slices/brewerySlice.ts:121 | the detail URL is the endpoint, `/`, then the id unencoded |
| BreweryRequests.RandomUrl | src/store/slices/brewerySlice.ts:135-137 | the random URL's query parses back into the one `by_dist` parameter holding the location text, when that text has no `&` |
| BreweryRequests.RandomReadBack | src/store/slices/brewerySlice.ts:135-137 | the random request's only parameter is `by_dist`, holding the location rendered as `lat,lon` |
| BreweryRequests.SuggestionsUrl | src/store/slices/brewerySlice.ts:175-179 | the suggestions URL's query parses back into `query`, holding the encoded text, then `per_page=200` |
| BreweryRequests.SuggestionsReadBack | src/store/slices/brewerySlice.ts:175-179 | the suggestions request carries `query`, which decodes back to the query text, then `per_page=200` |
| BreweryRequests.AnnotateAll | src/store/slices/brewerySlice.ts:100-111 | the annotation keeps length, order and records; a record gets a distance exactly when it has both coordinates, and that distance is the haversine distance from the user |
| BreweryRequests.PlainAll | src/store/slices/brewerySlice.ts:71-72 | every record as fetched, in order, without a distance |
| BreweryRequests.WithDistances | src/store/slices/brewerySlice.ts:97-114 | the filtered result has the response's records in order and removes none; distances appear only with a truthy distance filter, a known location and both coordinates |
| BreweryRequests.NearbyCandidates | src/store/slices/brewerySlice.ts:145-156 | the nearby list holds exactly the candidates with both coordinates within 10 miles, inclusive |
| BreweryRequests.PickIndex | src/store/slices/brewerySlice.ts:160 | `Math.floor(r * n)` for a draw in `[0, 1)` is a valid index |
| BreweryRequests.EveryIndexReachable | src/store/slices/brewerySlice.ts:160 | every index is drawn by some `r` in `[0, 1)` |
| BreweryRequests.PickFrom | src/store/slices/brewerySlice.ts:158-163 | a pick from a list is one of its elements, and `undefined` exactly for an empty list |
| BreweryRequests.PickRandom | src/store/slices/brewerySlice.ts:145-163 | the random pick is a candidate; it is a nearby one whenever any candidate is nearby; and it is `undefined`, not an error, exactly when there are no candidates |
| BreweryRequests.Names | src/store/slices/brewerySlice.ts:184-185 | one name per record, in response order, duplicates kept |
| BreweryRequests.Settle | src/store/slices/brewerySlice.ts:66-69 | a non-ok response rejects with the fixed message, a thrown error with its own message, and an ok one fulfils with the body's result |
| BreweryRequests.RunFetchBreweries | src/store/slices/brewerySlice.ts:66-72 | success gives the fetched records without distances; a non-ok response gives "Failed to fetch breweries"; a thrown error rejects with its own message |
| BreweryRequests.RunFetchFiltered | src/store/slices/brewerySlice.ts:92-114 | success gives the fetched records, in order, with the distance annotation of `WithDistances`; a non-ok response gives "Failed to fetch breweries"; a thrown error rejects with its own message |
| BreweryRequests.RunFetchById | src/store/slices/brewerySlice.ts:121-127 | success gives the record; a non-ok response gives "Failed to fetch brewery details"; a thrown error rejects with its own message |
| BreweryRequests.RunFetchRandom | src/store/slices/brewerySlice.ts:135-163 | success fulfils, with `undefined` exactly for an empty response, otherwise with a response record that is nearby whenever one is; a non-ok response gives "Failed to fetch random brewery"; a thrown error rejects with its own message |
| BreweryRequests.RunFetchSuggestions | src/store/slices/brewerySlice.ts:167-186 | a query shorter than two units fulfils with `[]` without a request; otherwise success gives the names and a non-ok response gives "Failed to fetch suggestions", and a thrown error rejects with its own message |
| App.HasFilters | src/App.tsx:36-41 | no filter is active exactly for the initial filter set, or that set with a distance of 0 |
| App.ListEffect | src/App.tsx:35-48 | exactly one listing request per filter change: the filtered one with the filters when a filter is truthy, else the plain one with no parameters |
| App.UnfilteredListingQuery | src/App.tsx:46 | with no filter, the request is page 1 of 200 and names no filter |
| App.LocationEffect | src/App.tsx:28-33 | only when both coordinates are truthy are the location stored and then a random brewery requested at the same coordinates; a coordinate of 0 dispatches nothing |
| App.LocationReachesFilteredQuery | src/App.tsx:30 | after the stored location, a filtered request with a truthy distance carries that location under `by_distance` |
| Filters.TextEdit | src/components/Filters/Filters.tsx:32-34 | a text control's payload names exactly its own field |
| Filters.DistanceEdit | src/components/Filters/Filters.tsx:32-34 | choosing a distance, merged into any filter set, sets the distance and leaves every other field as it was |
| Filters.EditChangesOneField | src/components/Filters/Filters.tsx:32-34 | after an edit, only the edited field differs |
| Filters.ClearAllRestoresInitial | src/components/Filters/Filters.tsx:36-44 | `Clear All` restores the initial filters from any state and returns to page 1, after which no filter is active and the plain listing is requested |
| Filters.ShowClearAll | src/components/Filters/Filters.tsx:46 | the button shows exactly when the app would use the filtered request, that is, unless every text field is empty and the distance is null or 0 |
| Filters.SelectValue | src/components/Filters/Filters.tsx:103 | the select shows `''` exactly for a falsy distance, else the distance in decimal |
| Filters.DistanceFromSelect | src/components/Filters/Filters.tsx:104 | `''` reads as null; anything else reads as a non-negative number |
| Filters.DistanceSelectRoundTrip | src/components/Filters/Filters.tsx:25-30 | each offered option, shown and read back, gives the same option |
| Filters.OptionsAreTruthy | src/components/Filters/Filters.tsx:25-30 | every option except "Any Distance" is a truthy distance |
| Filters.DistanceDisabled | src/components/Filters/Filters.tsx:105 | the select is disabled exactly when there is no location |
| Filters.TypeOptionSets | src/components/Filters/Filters.tsx:11-23 | choosing a type option sets exactly that type; only "All Types" leaves it falsy |
| SearchBar.Mount | src/components/SearchBar/SearchBar.tsx:17-18 | the box starts with the store's search text and a closed list |
| SearchBar.LongEnough | src/components/SearchBar/SearchBar.tsx:54 | `length >= 2` in UTF-16 units holds exactly for two or more characters, or one character outside the Basic Multilingual Plane |
| SearchBar.Handle | src/components/SearchBar/SearchBar.tsx:51-84 | the per-event effects: typing sets the text and opens the list for two or more units without dispatching; focus reopens it the same way; a suggestion click sets both the box and the search filter and closes the list; submit sends the box text and closes the list; clear empties the box and dispatches the empty search and `clearSuggestions`; a click outside closes the list |
| SearchBar.HandlePreservesUiInv | src/components/SearchBar/SearchBar.tsx:51-73 | the list is only open over two or more units or an empty box |
| SearchBar.HandleAll | src/components/SearchBar/SearchBar.tsx:37-73 | that invariant holds after any sequence of events |
| SearchBar.DropdownVisible | src/components/SearchBar/SearchBar.tsx:101 | the dropdown is visible exactly when the flag is set and there are suggestions |
| SearchBar.ClearButtonVisible | src/components/SearchBar/SearchBar.tsx:88 | the clear button is shown exactly while the box holds text |
| SearchBar.DebouncedEffect | src/components/SearchBar/SearchBar.tsx:22-31 | once typing pauses, the suggestions request is sent exactly for two or more units, else `clearSuggestions` |
| SearchBar.DebouncedRequestReachesNetwork | src/components/SearchBar/SearchBar.tsx:24-25 | a request sent by the box never takes the thunk's short-query exit; its outcome is the names or the failure |
| SearchBar.ClearHidesDropdown | src/components/SearchBar/SearchBar.tsx:69-73 | after `clear`, nothing is shown, the search filter is empty and the page is 1 |
| SearchBar.SuggestionClickSetsSearch | src/components/SearchBar/SearchBar.tsx:57-61 | after a suggestion click, the box and the search filter hold the suggestion, other filters are unchanged, the page is 1, and the dropdown is hidden |
| Pagination.PagerHiddenExactlyForOnePage | src/components/Pagination/Pagination.tsx:13 | over a state that satisfies the store invariant, the pager is hidden exactly when the list fits on one page of twelve, so always over an empty list |
| Pagination.EmptyListingHidesPager | src/components/Pagination/Pagination.tsx:13 | an empty listing leaves 0 pages, and the pager renders nothing |
| Pagination.Window | src/components/Pagination/Pagination.tsx:25-27 | the window is the consecutive pages `lo..hi` |
| Pagination.VisiblePages | src/components/Pagination/Pagination.tsx:20-44 | the loop-built row is the row the definition describes |
| Pagination.VisibleShape | src/components/Pagination/Pagination.tsx:29-41 | the row starts at 1, ends at the last page and has 2 to 9 entries; with the page in range, `...` follows 1 exactly when `c-2 > 2` and precedes the last exactly when `c+2 < T-1` |
| Pagination.DotsSeparateDistantPages | src/components/Pagination/Pagination.tsx:29-41 | with the page in range, every `...` stands strictly inside the row, between two page buttons whose numbers differ by at least 2 |
| Pagination.VisibleMembership | src/components/Pagination/Pagination.tsx:20-44 | a page has a button exactly when it is the first, the last, or within two of the current page |
| Pagination.CurrentPageShown | src/components/Pagination/Pagination.tsx:20-44 | the current page, in range, always has a button |
| Pagination.VisibleNumbers | src/components/Pagination/Pagination.tsx:29-41 | the row's numbers are 1, the window, then the last page |
| Pagination.VisibleIncreasing | src/components/Pagination/Pagination.tsx:20-44 | the page numbers strictly increase, so there are no duplicates |
| Pagination.Previous | src/components/Pagination/Pagination.tsx:50-51 | Previous is disabled exactly on page 1 and otherwise goes one page back |
| Pagination.Next | src/components/Pagination/Pagination.tsx:82-83 | Next is disabled exactly on the last page and otherwise goes one page on |
| Pagination.NavigationStaysInRange | src/components/Pagination/Pagination.tsx:15-18 | from a page in range, every button leads to a page in range, and the store's page follows |
| BreweryList.JsSlice | src/components/Brewery/BreweryList.tsx:54 | `slice` with non-negative bounds is the clamped subsequence |
| BreweryList.PageSlice | src/components/Brewery/BreweryList.tsx:52-54 | a page shows at most twelve consecutive records starting at `(c-1)*12`, exactly twelve when the list reaches that far, and nothing on page 0 |
| BreweryList.PageContents | src/components/Brewery/BreweryList.tsx:52-54 | a page in range holds the records `(c-1)*12` up to `c*12` or the end: one to twelve records, and exactly twelve before the last page |
| BreweryList.PagePastEndEmpty | src/components/Brewery/BreweryList.tsx:52-54 | a page past the last is empty, because the page is never clamped |
| BreweryList.AllPagesAreTheList | src/components/Brewery/BreweryList.tsx:52-54 | the pages 1 to `ceil(L/12)`, concatenated, are the list, with no gaps or overlaps |
| BreweryList.Noun | src/components/Brewery/BreweryList.tsx:62-63 | "Brewery" exactly for one result, "Breweries" for any other count |
| BreweryList.Render | src/components/Brewery/BreweryList.tsx:17-54 | the spinner while loading; else the error panel for a non-empty error; else "No Breweries Found" for an empty list; else the current page |
| BreweryList.HeadingMatchesCards | src/components/Brewery/BreweryList.tsx:66-68 | on a page in range, "Showing a-b" counts exactly the cards shown and stays within the list |
| BreweryList.ClickedCardIsListEntry | src/components/Brewery/BreweryList.tsx:75-80 | the record the `k`-th card hands to the modal is list entry `(c-1)*12 + k` |
| BreweryList.FilteredListingShowsFirstPage | src/components/Brewery/BreweryList.tsx:52-68 | after a non-empty filtered listing arrives, the panel shows its first twelve records from position 1 |
| BreweryCard.FormatBreweryType | src/components/Brewery/BreweryCard.tsx:11-13 | the badge text has the type's length; its first character is upper-cased and only the first `_` after it becomes a space |
| BreweryCard.FormatRoundTrip | src/components/Brewery/BreweryCard.tsx:11-13 | a lower-case type without spaces can be read back from its badge text |
| BreweryCard.FormatInjective | src/components/Brewery/BreweryCard.tsx:11-13 | such types get distinct badge texts |
| BreweryCard.CardColor | src/components/Brewery/BreweryCard.tsx:15-29 | a known type gets its table entry; any other type gets `bg-gray-100 text-gray-800` |
| BreweryCard.ColorsCoverFilterTypes | src/components/Brewery/BreweryCard.tsx:15-29 | the colour table's keys are exactly the ten types the filter panel offers |
| BreweryCard.DefaultLookalikes | src/components/Brewery/BreweryCard.tsx:15-29 | `planning` is the only known type coloured like an unknown one, and `closed` is the only type with the muted `text-gray-500` |
| BreweryCard.AddressLines | src/components/Brewery/BreweryCard.tsx:62-73 | the address block is line 1, line 2 when truthy, then `city, state postal` |
| BreweryCard.Card | src/components/Brewery/BreweryCard.tsx:51-101 | the address, phone, website and distance lines each appear exactly when their field is truthy; a distance of 0 shows no line but leaves a stray `0` text in the card |
| BreweryCard.DistanceShownOnlyWhenComputed | src/components/Brewery/BreweryCard.tsx:94-101 | a card shows a distance only in a filtered listing with a truthy distance, a location and coordinates, and that distance is the record's own; a plain listing never shows one |
| BreweryModal.ModalColor | src/components/Brewery/BreweryModal.tsx:15-29 | a known type gets its bordered entry; any other gets `bg-gray-100 text-gray-800 border-gray-200` |
| BreweryModal.ModalColorExtendsCard | src/components/Brewery/BreweryModal.tsx:15-29 | the modal knows the card's ten types, and every type's modal classes are its card classes plus a border class in the badge's hue |
| BreweryModal.OpenInMaps | src/components/Brewery/BreweryModal.tsx:31-40 | with coordinates, the coordinates URL; else, with a truthy first address line, the address search; else nothing |
| BreweryModal.AddressSearchReadBack | src/components/Brewery/BreweryModal.tsx:36-37 | the search URL's `query` decodes back to exactly the street address, whatever its characters |
| BreweryModal.CoordinatesReadBack | src/components/Brewery/BreweryModal.tsx:33 | for plain coordinate texts, the `q` parameter splits back into latitude and longitude, in order |
| BreweryModal.ModalAddressLines | src/components/Brewery/BreweryModal.tsx:81-87 | address lines 1 to 3 each appear, in order and with their own text, exactly when truthy; the `city, state postal` and country lines always appear |
| BreweryModal.Modal | src/components/Brewery/BreweryModal.tsx:50-149 | the phone link `tel:` with the phone, the website and the coordinates section each appear exactly when their fields are truthy, and coordinates need both |
| BreweryModal.ModalAgreesWithCard | src/components/Brewery/BreweryModal.tsx:11-29 | for the same record, the modal and the card show the same badge text, the modal's classes extend the card's, and the phone and website appear in both or neither |
| BreweryModal.MapsFollowsCoordinates | src/components/Brewery/BreweryModal.tsx:31-40 | `Open in Maps` opens a coordinates map exactly when the coordinates section is shown |
| RandomBrewery.DirectionsUrl | src/components/RandomBrewery/RandomBrewery.tsx:15-20 | a coordinates URL exactly when both coordinates are truthy, with no address fallback |
| RandomBrewery.Panel | src/components/RandomBrewery/RandomBrewery.tsx:9-90 | nothing without a pick; otherwise name and badge text, and the address, phone, website and directions each exactly when their fields are truthy |
| RandomBrewery.DirectionsAgreeWithModal | src/components/RandomBrewery/RandomBrewery.tsx:15-20 | the panel's directions equal the modal's maps link whenever offered; the two differ exactly for a record with a street address and no coordinates |
| RandomBrewery.RandomFetchToPanel | src/components/RandomBrewery/RandomBrewery.tsx:9 | a random fetch with no candidates leaves the panel empty and reports no error; otherwise the panel shows a candidate, nearby whenever one is |
| Text.IntToDecimal | src/store/slices/brewerySlice.ts:59 | a number in a template literal: non-empty, digits only exactly for a non-negative number, a leading `-` exactly for a negative one |
| Text.DecimalRoundTrip | src/components/Filters/Filters.tsx:104 | `Number` of a rendered non-negative integer gives the integer |
| Text.Utf16Length | src/store/slices/brewerySlice.ts:170 | JavaScript `length` lies between the character count and twice it, and equals the count for characters of the Basic Multilingual Plane |
| Text.ReplaceFirst | src/components/Brewery/BreweryCard.tsx:12 | `replace` with a character changes only its first occurrence |
| Text.ReplaceFirstBack | src/components/Brewery/BreweryCard.tsx:12 | replacing back, with a character the text lacks, restores the text |
| Uri.EncodeComponent | src/store/slices/brewerySlice.ts:61-64 | the encoding uses only unreserved characters, hex digits and `%` |
| Uri.EncodedHasNoDelimiters | src/store/slices/brewerySlice.ts:61-64 | an encoded value never contains `&` or `=` |
| Uri.DecodeEncode | src/store/slices/brewerySlice.ts:61-64 | decoding an encoded value gives the value back |
| Uri.EncodeInjective | src/store/slices/brewerySlice.ts:61-64 | different values never encode alike |
| Uri.ParseRenderQuery | src/store/slices/brewerySlice.ts:59-64 | a rendered query of parameters without delimiters parses back into the same parameters, in order |

## Left out

- Network I/O is not modelled. This covers `fetch`, `response.ok`, JSON
  parsing and the base URL from `utils/api-constants`, which is not part
  of this model. A response is the `Http` input: `Ok(body)`, `NotOk`, or
  `Thrown(message)`. `Thrown` covers a network failure or malformed JSON.
- `haversineDistance` (in `src/utils`, not part of this model),
  `parseFloat` and the rendering of a number are uninterpreted
  `Platform` fields. Distances are not rounded, and floating-point
  behaviour, including NaN, is not modelled.
- `Math.random` is the caller's draw `r` in `[0, 1)`.
- Timers are not modelled: the 300 ms debounce (`utils/debounce`, not
  part of this model) and the 100 ms delay in `fetchSuggestions`. So
  `SearchBar.DebouncedEffect` is what the debounced callback does once
  it fires, not when it fires.
- Concurrency is not modelled: requests in flight at once, and the order
  in which they settle. The slice has no guard against a stale response,
  and the model applies each action by itself.
- `useGeolocation`, `createSlice`/`createAsyncThunk`/`configureStore`,
  `useEffect`/`useState`, `window.open`, `window.scrollTo`, document
  listeners and all markup and styling are left out. The exception is
  the visibility conditions and class tables above.
- SearchBar.Handle: `Clear` leaves the `showSuggestions` flag as it
  was, as the source does. The dropdown still hides, because the
  suggestions are emptied (`SearchBar.ClearHidesDropdown`).
- `itemsPerPage` is the constant 12 rather than a state field, because
  no action writes it.
- The filter distance is an optional integer. Its only writer is the
  select, which offers 25, 50 and 100. Fractional distances are not
  modelled.
- Uri.EncodeComponent: strings are sequences of Unicode scalar values,
  so a lone UTF-16 surrogate cannot occur. `encodeURIComponent` throws
  `URIError` on one, which would reject the listing and suggestion
  requests and make `Open in Maps` throw. That error path is not modelled,
  and the encoding is total.
- Text.UpperAscii: `toUpperCase` is modelled for ASCII letters only.
  Other characters are left unchanged.
- BreweryCard.CardColor: the colour lookup does not model inherited
  object keys such as `constructor`, for which `colors[type]` would find an
  inherited member rather than the default.
- BreweryModal.ModalColor: the same inherited-key case is left out.
- BreweryCard.FormatRoundTrip: the badge text is read back only for
  types that do not start with an upper-case letter and have no space.
  Other types can collide, for example `micro` and `Micro`.
- BreweryModal.CoordinatesReadBack: the read-back is stated only for
  coordinate texts without `&` or `,`. The URL inserts the raw strings
  unencoded, so other texts do not split back.
- BrewerySlice.PageCount is `Math.ceil` on integers. The source divides
  in floating point and rounds the quotient, and `Math.ceil` of that
  rounded quotient equals the integer ceiling for every list length a
  response can hold. The model does not carry out that argument.
- BreweryRequests.FilteredUrl, BreweryRequests.FilteredReadBack,
  BreweryRequests.RandomUrl, BreweryRequests.RandomReadBack,
  App.LocationReachesFilteredQuery: the
  read-back assumes that the platform's rendering of a number never
  contains `&` (`NumbersArePlain`). Nothing else is assumed of the
  `Platform` functions.
- BreweryList.Render: the error test is JavaScript truthiness on
  `string | null`, so an empty error string falls through to the list,
  as the model states.
- The code has these behaviours, and the model keeps them:
  - `totalPages` has no floor of 1, so an empty listing gives 0 pages,
    although the initial state has 1;
  - the distance filter annotates records but never removes them;
  - an empty random-candidate list yields `undefined`, not an error.

=== FILE: app.dfy ===
/**
 The application shell's two effects: on a usable location it stores the
 location and asks for a random nearby brewery; on every filter change it
 asks for the listing, through the plain or the filtered request depending
 on whether any filter is set.
 */
module App {
  import opened Wrappers
  import opened Text
  import opened Uri
  import opened Types
  import opened BreweryRequests
  import opened BrewerySlice

  /** What an effect hands to `dispatch`: a store action or one of the request workflows. */
  datatype Dispatch =
    | Store(action: Action)
    | RandomRequest(location: UserLocation)
    | ListRequest(params: ListParams)
    | FilteredRequest(filters: BreweryFilters)
    | SuggestionsRequest(query: string)

  /**
   `search || city || state || distance || breweryType`, read as a boolean.
   The filter sets that count as "no filters" are the initial set and the
   initial set with a distance of zero (zero is falsy).
   */
  function HasFilters(f: BreweryFilters): (b: bool)
    ensures !b <==> f == InitialFilters || f == InitialFilters.(distance := Some(0))
  {
    Truthy(f.search) || Truthy(f.city) || Truthy(f.state) || TruthyInt(f.distance) || Truthy(f.breweryType)
  }

  /** The listing effect: the filtered request with the filters when one is set, else the plain one with defaults. */
  function ListEffect(f: BreweryFilters): (d: Dispatch)
    ensures d.FilteredRequest? <==> HasFilters(f)
    ensures d.FilteredRequest? ==> d.filters == f
    ensures d.ListRequest? ==> d.params == NoParams
    ensures d.ListRequest? || d.FilteredRequest?
  {
    if HasFilters(f) then FilteredRequest(f) else ListRequest(NoParams)
  }

  /**
   With no filter set, the plain request asks for page 1 of 200 records and
   names no filter at all.
   */
  lemma UnfilteredListingQuery(endpoint: string, f: BreweryFilters, k: QueryKey)
    requires '?' !in endpoint && !HasFilters(f)
    ensures ListEffect(f) == ListRequest(NoParams)
    ensures Lookup(ParseQuery(QueryPart(BreweriesUrl(endpoint, NoParams))), KeyName(k)) ==
      match k
      case PageKey => Some(IntToDecimal(DefaultPage))
      case PerPageKey => Some(IntToDecimal(DefaultPerPage))
      case _ => None
  {
    BreweriesReadBack(endpoint, NoParams, k);
  }

  /**
   The location effect: only when both coordinates are truthy (present and
   non-zero) does it store the location and then ask for a random brewery
   near it.
   */
  function LocationEffect(latitude: Option<real>, longitude: Option<real>): (ds: seq<Dispatch>)
    ensures TruthyReal(latitude) && TruthyReal(longitude) ==>
      var loc := UserLocation(latitude.value, longitude.value);
      ds == [Store(SetUserLocation(loc)), RandomRequest(loc)]
    ensures !(TruthyReal(latitude) && TruthyReal(longitude)) ==> ds == []
  {
    if TruthyReal(latitude) && TruthyReal(longitude) then
      var loc := UserLocation(latitude.value, longitude.value);
      [Store(SetUserLocation(loc)), RandomRequest(loc)]
    else []
  }

  /**
   After the location effect's store action, the filtered request's
   `by_distance` carries that location (once the distance filter is on).
   */
  lemma LocationReachesFilteredQuery(s: State, lat: real, lon: real, plat: Platform, endpoint: string, f: BreweryFilters)
    requires lat != 0.0 && lon != 0.0
    requires '?' !in endpoint && NumbersArePlain(plat) && TruthyInt(f.distance)
    ensures var ds := LocationEffect(Some(lat), Some(lon));
      |ds| == 2 && ds[0].Store?
      && var s' := Reduce(s, ds[0].action);
      Lookup(ParseQuery(QueryPart(FilteredUrl(endpoint, f, s'.userLocation, plat))), KeyName(ByDistance))
        == Some(LocationText(plat, Some(UserLocation(lat, lon))))
  {
    var loc := UserLocation(lat, lon);
    var s' := Reduce(s, SetUserLocation(loc));
    FilteredReadBack(endpoint, f, s'.userLocation, plat, ByDistance);
  }
}

=== FILE: brewery_card.dfy ===
/**
 A listing card: the type badge (its text and colour classes), and which of
 the address, phone, website and distance lines it shows. The badge text
 is the same function in the card, the detail modal and the random panel.
 */
module BreweryCard {
  import opened Wrappers
  import opened Text
  import opened Types
  import opened BreweryRequests
  import Filters

  /**
   `type.charAt(0).toUpperCase() + type.slice(1).replace('_', ' ')`: the
   first character upper-cased, and the first underscore after it turned
   into a space.
   */
  function FormatBreweryType(t: string): (badge: string)
    ensures |badge| == |t|
    ensures t != "" ==> badge[0] == UpperAscii(t[0])
    ensures t != "" ==> badge[1..] == ReplaceFirst(t[1..], '_', ' ')
  {
    if t == "" then "" else [UpperAscii(t[0])] + ReplaceFirst(t[1..], '_', ' ')
  }

  /** Reading a badge text back as a type: the first character lower-cased, the first space back to `_`. */
  function ParseBadge(badge: string): string {
    if badge == "" then "" else [LowerAscii(badge[0])] + ReplaceFirst(badge[1..], ' ', '_')
  }

  /**
   The badge text loses nothing for a type that does not start with an upper-case
   letter and has no space in it: the type can be read back from its badge.
   */
  lemma FormatRoundTrip(t: string)
    requires t == "" || !('A' <= t[0] <= 'Z')
    requires ' ' !in t
    ensures ParseBadge(FormatBreweryType(t)) == t
  {
    if t != "" {
      LowerUpper(t[0]);
      assert forall c :: c in t[1..] ==> c in t;
      ReplaceFirstBack(t[1..], '_', ' ');
      var badge := FormatBreweryType(t);
      assert badge[1..] == ReplaceFirst(t[1..], '_', ' ');
      assert ParseBadge(badge) == [t[0]] + t[1..];
    }
  }

  /** Distinct types of that kind get distinct labels. */
  lemma FormatInjective(t: string, u: string)
    requires t == "" || !('A' <= t[0] <= 'Z')
    requires u == "" || !('A' <= u[0] <= 'Z')
    requires ' ' !in t && ' ' !in u
    requires FormatBreweryType(t) == FormatBreweryType(u)
    ensures t == u
  {
    FormatRoundTrip(t);
    FormatRoundTrip(u);
  }

  // ---- badge colours ----

  /** The card's colour classes per type. */
  const CardColors: map<string, string> := map[
    "micro" := "bg-green-100 text-green-800",
    "nano" := "bg-blue-100 text-blue-800",
    "regional" := "bg-purple-100 text-purple-800",
    "brewpub" := "bg-orange-100 text-orange-800",
    "large" := "bg-red-100 text-red-800",
    "planning" := "bg-gray-100 text-gray-800",
    "bar" := "bg-yellow-100 text-yellow-800",
    "contract" := "bg-indigo-100 text-indigo-800",
    "proprietor" := "bg-pink-100 text-pink-800",
    "closed" := "bg-gray-100 text-gray-500"]

  const DefaultCardColor := "bg-gray-100 text-gray-800"

  /** `colors[type] || default`. */
  function CardColor(t: string): (classes: string)
    ensures t in CardColors ==> classes == CardColors[t]
    ensures t !in CardColors ==> classes == DefaultCardColor
  {
    if t in CardColors then CardColors[t] else DefaultCardColor
  }

  /**
   Every type the filter panel offers has its own colour entry, and every
   colour entry is a type the filter panel offers.
   */
  lemma ColorsCoverFilterTypes()
    ensures forall i :: 0 < i < |Filters.TypeOptions| ==> Filters.TypeOptions[i] in CardColors
    ensures forall t :: t in CardColors ==> t in Filters.TypeOptions[1..]
  {
    var opts := Filters.TypeOptions;
    assert opts[1..] == ["micro", "nano", "regional", "brewpub", "large", "planning", "bar", "contract", "proprietor", "closed"];
  }

  /** `planning` looks like an unknown type; `closed` is the only type with muted text. */
  lemma DefaultLookalikes(t: string)
    ensures CardColor("planning") == DefaultCardColor
    ensures t in CardColors && CardColor(t) == DefaultCardColor ==> t == "planning"
    ensures CardColor(t) == "bg-gray-100 text-gray-500" <==> t == "closed"
  {
  }

  // ---- card contents ----

  /**
   What a card shows; an absent line is `None`. `strayZero` is the bare
   text `0` that `{distance && ...}` leaves in the card when the distance
   is the falsy number 0.
   */
  datatype CardView = CardView(
    name: string,
    badgeText: string,
    badgeClasses: string,
    address: Option<seq<string>>,
    phone: Option<string>,
    website: bool,
    distance: Option<real>,
    strayZero: bool)

  /** The address block: line 1, line 2 when truthy, then `city, state postal`. */
  function AddressLines(b: Brewery): (lines: seq<string>)
    ensures |lines| == if TruthyText(b.address2) then 3 else 2
    ensures lines[0] == b.address1
    ensures lines[|lines| - 1] == b.city + ", " + b.state + " " + b.postalCode
  {
    [b.address1] + (if TruthyText(b.address2) then [b.address2.value] else []) + [b.city + ", " + b.state + " " + b.postalCode]
  }

  /**
   A card: each optional line appears exactly when its field is truthy. A
   distance of 0 shows no distance line, but the falsy 0 itself is rendered.
   */
  function Card(w: BreweryWithDistance): (v: CardView)
    ensures v.name == w.brewery.name
    ensures v.badgeText == FormatBreweryType(w.brewery.breweryType)
    ensures v.badgeClasses == CardColor(w.brewery.breweryType)
    ensures v.address.Some? <==> Truthy(w.brewery.address1)
    ensures v.phone.Some? <==> TruthyText(w.brewery.phone)
    ensures v.phone.Some? ==> v.phone == w.brewery.phone
    ensures v.website <==> TruthyText(w.brewery.websiteUrl)
    ensures v.distance.Some? <==> TruthyReal(w.distance)
    ensures v.distance.Some? ==> v.distance == w.distance
    ensures v.strayZero <==> w.distance == Some(0.0)
  {
    var b := w.brewery;
    CardView(
      b.name,
      FormatBreweryType(b.breweryType),
      CardColor(b.breweryType),
      if Truthy(b.address1) then Some(AddressLines(b)) else None,
      if TruthyText(b.phone) then b.phone else None,
      TruthyText(b.websiteUrl),
      if TruthyReal(w.distance) then w.distance else None,
      w.distance == Some(0.0))
  }

  /**
   A card shows a distance only in a filtered listing with a truthy distance
   filter and a known location, only for a record with coordinates, and the
   value is that record's great-circle distance; a plain listing never shows one.
   */
  lemma DistanceShownOnlyWhenComputed(body: seq<Brewery>, f: BreweryFilters, loc: Option<UserLocation>,
                                      plat: Platform, i: nat)
    requires i < |body|
    ensures var v := Card(WithDistances(body, f, loc, plat)[i]);
      v.distance.Some? ==>
        TruthyInt(f.distance) && loc.Some? && HasCoordinates(body[i])
        && v.distance.value == DistanceTo(plat, loc.value, body[i])
    ensures Card(PlainAll(body)[i]).distance.None?
  {
  }
}

=== FILE: brewery_list.dfy ===
/**
 The results panel: which of spinner, error, empty notice or listing is
 shown, the page of twelve cards the listing holds, and its header texts.
 */
module BreweryList {
  import opened Wrappers
  import opened Types
  import opened BrewerySlice

  /** `Array.prototype.slice(start, end)`: negative indices count from the end, all indices clamp. */
  function JsSlice<T>(s: seq<T>, start: int, end: int): (r: seq<T>)
    ensures |r| <= |s|
    ensures 0 <= start <= end ==>
      var lo := if start <= |s| then start else |s|;
      var hi := if end <= |s| then end else |s|;
      r == s[lo..hi]
    ensures end == 0 ==> r == []
  {
    var from := if start < 0 then (if |s| + start > 0 then |s| + start else 0) else (if start < |s| then start else |s|);
    var to := if end < 0 then (if |s| + end > 0 then |s| + end else 0) else (if end < |s| then end else |s|);
    if from >= to then [] else s[from..to]
  }

  /** `(currentPage - 1) * itemsPerPage`. */
  function StartIndex(page: int): int {
    (page - 1) * ItemsPerPage
  }

  /**
   The records shown on a page: at most twelve consecutive records of the
   list, starting at `(page - 1) * 12`. Page 0 shows nothing.
   */
  function PageSlice(list: seq<BreweryWithDistance>, page: int): (r: seq<BreweryWithDistance>)
    ensures |r| <= ItemsPerPage
    ensures page >= 1 ==> forall k :: 0 <= k < |r| ==>
      StartIndex(page) + k < |list| && r[k] == list[StartIndex(page) + k]
    ensures page >= 1 && StartIndex(page) + ItemsPerPage <= |list| ==> |r| == ItemsPerPage
    ensures page == 0 ==> r == []
  {
    JsSlice(list, StartIndex(page), StartIndex(page) + ItemsPerPage)
  }

  /**
   A page within the page count holds the records at positions
   `(page - 1) * 12` up to `page * 12` or the end: at least one, at most
   twelve, and exactly twelve on every page but the last.
   */
  lemma PageContents(list: seq<BreweryWithDistance>, page: int)
    requires 1 <= page <= PageCount(|list|)
    ensures var lo := StartIndex(page);
      var hi := if lo + ItemsPerPage <= |list| then lo + ItemsPerPage else |list|;
      lo < hi && PageSlice(list, page) == list[lo..hi]
    ensures page < PageCount(|list|) ==> |PageSlice(list, page)| == ItemsPerPage
  {
  }

  /** A page past the last one is empty. */
  lemma PagePastEndEmpty(list: seq<BreweryWithDistance>, page: int)
    requires page > PageCount(|list|)
    ensures PageSlice(list, page) == []
  {
  }

  /** Pages 1 to `n`, one after the other. */
  function Pages(list: seq<BreweryWithDistance>, n: nat): seq<BreweryWithDistance> {
    if n == 0 then [] else Pages(list, n - 1) + PageSlice(list, n)
  }

  /** The first `n` pages' worth of records: `n * 12` of them, or the whole list. */
  function PrefixEnd(len: nat, n: nat): (e: nat)
    ensures e <= len
    ensures e == len || e == n * ItemsPerPage
  {
    if n * ItemsPerPage <= len then n * ItemsPerPage else len
  }

  /** Page `n` is the stretch between the first `n - 1` pages' worth and the first `n` pages' worth. */
  lemma PageBetweenPrefixes(list: seq<BreweryWithDistance>, n: nat)
    requires n > 0
    ensures PageSlice(list, n) == list[PrefixEnd(|list|, n - 1)..PrefixEnd(|list|, n)]
  {
  }

  /** Reading pages 1 to `n` in order gives the first `n * 12` records, or all of them. */
  lemma {:induction false} PagesArePrefix(list: seq<BreweryWithDistance>, n: nat)
    ensures Pages(list, n) == list[..PrefixEnd(|list|, n)]
  {
    if n > 0 {
      PagesArePrefix(list, n - 1);
      PageBetweenPrefixes(list, n);
      var lo, hi := PrefixEnd(|list|, n - 1), PrefixEnd(|list|, n);
      assert lo <= hi;
      assert list[..lo] + list[lo..hi] == list[..hi];
    }
  }

  /** Paging loses and repeats nothing: all the pages together are the whole list. */
  lemma AllPagesAreTheList(list: seq<BreweryWithDistance>)
    ensures Pages(list, PageCount(|list|)) == list
  {
    PagesArePrefix(list, PageCount(|list|));
    assert list[..|list|] == list;
  }

  // ---- the panel ----

  /** What the panel shows, in order of precedence. */
  datatype View =
    | Spinner
    | ErrorPanel(message: string)
    | NoneFound
    | Listing(heading: Heading, cards: seq<BreweryWithDistance>)

  /** The listing's header: count, noun, and the `Showing a-b of n` range. */
  datatype Heading = Heading(count: nat, noun: string, showingFrom: int, showingTo: int)

  /** `filteredBreweries.length === 1 ? "Brewery" : "Breweries"`. */
  function Noun(n: nat): (noun: string)
    ensures noun == "Brewery" <==> n == 1
    ensures n != 1 ==> noun == "Breweries"
  {
    if n == 1 then "Brewery" else "Breweries"
  }

  function HeadingOf(list: seq<BreweryWithDistance>, page: int): Heading {
    var start := StartIndex(page);
    var end := start + ItemsPerPage;
    Heading(|list|, Noun(|list|), start + 1, if end <= |list| then end else |list|)
  }

  /** The panel for a store state and the selected page: loading wins, then a non-empty error, then emptiness. */
  function Render(s: State): (v: View)
    ensures v.Spinner? <==> s.loading
    ensures v.ErrorPanel? <==> !s.loading && s.error.Some? && s.error.value != ""
    ensures v.ErrorPanel? ==> v.message == s.error.value
    ensures v.NoneFound? <==> !s.loading && !(s.error.Some? && s.error.value != "") && s.filteredBreweries == []
    ensures v.Listing? ==> v.cards == PageSlice(s.filteredBreweries, s.currentPage) && v.heading.count == |s.filteredBreweries|
  {
    if s.loading then Spinner
    else if s.error.Some? && Truthy(s.error.value) then ErrorPanel(s.error.value)
    else if s.filteredBreweries == [] then NoneFound
    else Listing(HeadingOf(s.filteredBreweries, s.currentPage), PageSlice(s.filteredBreweries, s.currentPage))
  }

  /**
   On a page within range, `Showing a-b` names exactly the cards shown:
   `a` is the first card's position counting from one and `b - a + 1` cards
   are on the page.
   */
  lemma HeadingMatchesCards(list: seq<BreweryWithDistance>, page: int)
    requires 1 <= page <= PageCount(|list|)
    ensures var h := HeadingOf(list, page);
      h.showingTo - h.showingFrom + 1 == |PageSlice(list, page)|
      && 1 <= h.showingFrom <= h.showingTo <= |list|
  {
    PageContents(list, page);
  }

  /**
   A card hands its own record, unchanged, to the list's selection: the
   record the modal opens for the `k`-th card of a page within range is the
   list entry at position `(page - 1) * 12 + k`.
   */
  lemma ClickedCardIsListEntry(list: seq<BreweryWithDistance>, page: int, k: nat)
    requires 1 <= page <= PageCount(|list|)
    requires k < |PageSlice(list, page)|
    ensures StartIndex(page) + k < |list|
    ensures PageSlice(list, page)[k] == list[StartIndex(page) + k]
  {
    PageContents(list, page);
  }

  /**
   After a non-empty filtered listing arrives in a state with no error, the
   panel shows its first page: the first twelve records, or all of them.
   */
  lemma FilteredListingShowsFirstPage(s: State, list: seq<BreweryWithDistance>)
    requires list != [] && s.error.None?
    ensures var v := Render(Reduce(s, ListFulfilled(true, list)));
      v.Listing? && v.cards == list[..if ItemsPerPage <= |list| then ItemsPerPage else |list|]
      && v.heading.showingFrom == 1
  {
    PageContents(list, 1);
  }
}

=== FILE: brewery_modal.dfy ===
/**
 The detail modal: the bordered badge colours, the `Open in Maps` target
 (the record's coordinates, else a search for its street address, else
 nothing) and which sections it shows.
 */
module BreweryModal {
  import opened Wrappers
  import opened Text
  import opened Uri
  import opened Types
  import opened BreweryCard

  // ---- badge colours ----

  /** The modal's colour classes per type: the card's classes plus a border. */
  const ModalColors: map<string, string> := map[
    "micro" := "bg-green-100 text-green-800 border-green-200",
    "nano" := "bg-blue-100 text-blue-800 border-blue-200",
    "regional" := "bg-purple-100 text-purple-800 border-purple-200",
    "brewpub" := "bg-orange-100 text-orange-800 border-orange-200",
    "large" := "bg-red-100 text-red-800 border-red-200",
    "planning" := "bg-gray-100 text-gray-800 border-gray-200",
    "bar" := "bg-yellow-100 text-yellow-800 border-yellow-200",
    "contract" := "bg-indigo-100 text-indigo-800 border-indigo-200",
    "proprietor" := "bg-pink-100 text-pink-800 border-pink-200",
    "closed" := "bg-gray-100 text-gray-500 border-gray-200"]

  const DefaultModalColor := "bg-gray-100 text-gray-800 border-gray-200"

  /** `colors[type] || default`, bordered. */
  function ModalColor(t: string): (classes: string)
    ensures t in ModalColors ==> classes == ModalColors[t]
    ensures t !in ModalColors ==> classes == DefaultModalColor
  {
    if t in ModalColors then ModalColors[t] else DefaultModalColor
  }

  /** The border hue for a type: its badge hue, grey for unknown types. */
  function BorderHue(t: string): string {
    match t
    case "micro" => "green"
    case "nano" => "blue"
    case "regional" => "purple"
    case "brewpub" => "orange"
    case "large" => "red"
    case "bar" => "yellow"
    case "contract" => "indigo"
    case "proprietor" => "pink"
    case _ => "gray"
  }

  /**
   The modal knows the same ten types as the card, and for every type,
   known or not, its classes are the card's classes followed by a
   `border-<hue>-200` class in the badge's hue.
   */
  lemma ModalColorExtendsCard(t: string)
    ensures ModalColors.Keys == CardColors.Keys
    ensures ModalColor(t) == CardColor(t) + " border-" + BorderHue(t) + "-200"
  {
    SameTypes();
    if t in CardColors {
      KnownTypeBorder(t);
    } else {
      UnknownTypeBorder(t);
    }
  }

  /** An unknown type gets the default classes in both tables, with a grey border. */
  lemma UnknownTypeBorder(t: string)
    requires t !in CardColors
    ensures t !in ModalColors && ModalColor(t) == CardColor(t) + " border-" + BorderHue(t) + "-200"
  {
    SameTypes();
    assert t != "micro" && t != "nano" && t != "regional" && t != "brewpub" && t != "large";
    assert t != "bar" && t != "contract" && t != "proprietor";
    DefaultBorder();
  }

  lemma DefaultBorder()
    ensures DefaultModalColor == DefaultCardColor + " border-" + "gray" + "-200"
  {
  }

  /** The two colour tables list the same ten types. */
  lemma SameTypes()
    ensures ModalColors.Keys == CardColors.Keys
  {
  }

  /** The bordered classes of a known type. */
  lemma KnownTypeBorder(t: string)
    requires t in CardColors
    ensures t in ModalColors && ModalColors[t] == CardColors[t] + " border-" + BorderHue(t) + "-200"
  {
    assert t in CardColors.Keys;
    assert CardColors.Keys == {"micro", "nano", "regional", "brewpub", "large", "planning", "bar", "contract", "proprietor", "closed"};
    assert t in ModalColors;
    if t == "micro" { BorderMicro(); }
    else if t == "nano" { BorderNano(); }
    else if t == "regional" { BorderRegional(); }
    else if t == "brewpub" { BorderBrewpub(); }
    else if t == "large" { BorderLarge(); }
    else if t == "planning" { BorderPlanning(); }
    else if t == "bar" { BorderBar(); }
    else if t == "contract" { BorderContract(); }
    else if t == "proprietor" { BorderProprietor(); }
    else { BorderClosed(); }
  }

  lemma BorderMicro()
    ensures ModalColors["micro"] == CardColors["micro"] + " border-" + BorderHue("micro") + "-200"
  {
  }

  lemma BorderNano()
    ensures ModalColors["nano"] == CardColors["nano"] + " border-" + BorderHue("nano") + "-200"
  {
  }

  lemma BorderRegional()
    ensures ModalColors["regional"] == CardColors["regional"] + " border-" + BorderHue("regional") + "-200"
  {
  }

  lemma BorderBrewpub()
    ensures ModalColors["brewpub"] == CardColors["brewpub"] + " border-" + BorderHue("brewpub") + "-200"
  {
  }

  lemma BorderLarge()
    ensures ModalColors["large"] == CardColors["large"] + " border-" + BorderHue("large") + "-200"
  {
  }

  lemma BorderPlanning()
    ensures ModalColors["planning"] == CardColors["planning"] + " border-" + BorderHue("planning") + "-200"
  {
  }

  lemma BorderBar()
    ensures ModalColors["bar"] == CardColors["bar"] + " border-" + BorderHue("bar") + "-200"
  {
  }

  lemma BorderContract()
    ensures ModalColors["contract"] == CardColors["contract"] + " border-" + BorderHue("contract") + "-200"
  {
  }

  lemma BorderProprietor()
    ensures ModalColors["proprietor"] == CardColors["proprietor"] + " border-" + BorderHue("proprietor") + "-200"
  {
  }

  lemma BorderClosed()
    ensures ModalColors["closed"] == CardColors["closed"] + " border-" + BorderHue("closed") + "-200"
  {
  }

  // ---- open in maps ----

  const MapsEndpoint := "https://www.google.com/maps"
  const SearchEndpoint := "https://www.google.com/maps/search/"

  /** `${address_1}, ${city}, ${state} ${postal_code}`. */
  function StreetAddress(b: Brewery): string {
    b.address1 + ", " + b.city + ", " + b.state + " " + b.postalCode
  }

  /** `https://www.google.com/maps?q=${latitude},${longitude}`. */
  function CoordinatesUrl(b: Brewery): (url: string)
    requires HasCoordinates(b)
    ensures url == "https://www.google.com/maps?q=" + b.latitude.value + "," + b.longitude.value
  {
    RenderUrl(MapsEndpoint, [Param("q", b.latitude.value + "," + b.longitude.value)])
  }

  /** The search URL's parameters: `api=1`, then the encoded street address as `query`. */
  function SearchParams(b: Brewery): seq<Param> {
    [Param("api", "1"), Param("query", EncodeComponent(StreetAddress(b)))]
  }

  /** The search URL: the search endpoint, `?`, then `api=1&query=` and the encoded street address. */
  function AddressSearchUrl(b: Brewery): (url: string)
    ensures |url| > |SearchEndpoint| && url[..|SearchEndpoint| + 1] == SearchEndpoint + "?"
  {
    RenderUrl(SearchEndpoint, SearchParams(b))
  }

  /** The page `Open in Maps` opens: coordinates first, then the street address, else none. */
  function OpenInMaps(b: Brewery): (url: Option<string>)
    ensures url.None? <==> !HasCoordinates(b) && !Truthy(b.address1)
    ensures HasCoordinates(b) ==> url == Some(CoordinatesUrl(b))
    ensures !HasCoordinates(b) && Truthy(b.address1) ==> url == Some(AddressSearchUrl(b))
  {
    if HasCoordinates(b) then Some(CoordinatesUrl(b))
    else if Truthy(b.address1) then Some(AddressSearchUrl(b))
    else None
  }

  /**
   The address search carries the street address intact: its `query`
   parameter, read back from the URL and decoded, is exactly the address
   line the modal built, whatever characters it contains.
   */
  lemma AddressSearchReadBack(b: Brewery)
    ensures var ps := ParseQuery(QueryPart(AddressSearchUrl(b)));
      Keys(ps) == ["api", "query"]
      && Lookup(ps, "api") == Some("1")
      && Lookup(ps, "query").Some?
      && DecodeComponent(Lookup(ps, "query").value) == Some(StreetAddress(b))
  {
    var ps := SearchParams(b);
    assert AddressSearchUrl(b) == RenderUrl(SearchEndpoint, ps);
    SearchParamsReadBack(b);
    SearchParamsLookup(b);
    DecodeEncode(StreetAddress(b));
  }

  /** The rendered search parameters parse back to themselves. */
  lemma SearchParamsReadBack(b: Brewery)
    ensures ParseQuery(QueryPart(RenderUrl(SearchEndpoint, SearchParams(b)))) == SearchParams(b)
  {
    var ps := SearchParams(b);
    assert '?' !in SearchEndpoint;
    QueryPartOfUrl(SearchEndpoint, ps);
    EncodedHasNoDelimiters(StreetAddress(b));
    ParseRenderQuery(ps);
  }

  /** The search parameters are `api=1`, then `query` holding the encoded street address. */
  lemma SearchParamsLookup(b: Brewery)
    ensures Keys(SearchParams(b)) == ["api", "query"]
    ensures Lookup(SearchParams(b), "api") == Some("1")
    ensures Lookup(SearchParams(b), "query") == Some(EncodeComponent(StreetAddress(b)))
  {
    var ps := SearchParams(b);
    assert ps[1..] == [ps[1]];
    assert "query" != "api";
  }

  /**
   The coordinates URL carries both coordinates: for coordinate texts free
   of the query delimiters and of commas, its `q` parameter splits on the
   comma into the latitude and the longitude, in that order.
   */
  lemma CoordinatesReadBack(b: Brewery)
    requires HasCoordinates(b)
    requires '&' !in b.latitude.value && '&' !in b.longitude.value
    requires ',' !in b.latitude.value && ',' !in b.longitude.value
    ensures var ps := ParseQuery(QueryPart(CoordinatesUrl(b)));
      Keys(ps) == ["q"]
      && Lookup(ps, "q").Some?
      && Split(Lookup(ps, "q").value, ',') == [b.latitude.value, b.longitude.value]
  {
    var lat, lon := b.latitude.value, b.longitude.value;
    var v := lat + "," + lon;
    var ps := [Param("q", v)];
    assert '?' !in MapsEndpoint;
    QueryPartOfUrl(MapsEndpoint, ps);
    assert '&' !in v by {
      assert forall j :: 0 <= j < |v| ==> v[j] == (if j < |lat| then lat[j] else if j == |lat| then ',' else lon[j - |lat| - 1]);
    }
    ParseRenderQuery(ps);
    SplitJoin([lat, lon], ',');
    assert Join([lat, lon], ',') == v;
  }

  // ---- sections ----

  /** What the modal shows; an absent section is `None`. */
  datatype ModalView = ModalView(
    title: string,
    badgeText: string,
    badgeClasses: string,
    addressLines: seq<string>,
    phoneLink: Option<string>,
    website: Option<string>,
    coordinates: Option<(string, string)>)

  /** Address lines 1 to 3 when truthy, then `city, state postal` and the country, always. */
  function ModalAddressLines(b: Brewery): (lines: seq<string>)
    ensures |lines| == 2 + (if Truthy(b.address1) then 1 else 0)
      + (if TruthyText(b.address2) then 1 else 0) + (if TruthyText(b.address3) then 1 else 0)
    ensures lines[|lines| - 2] == b.city + ", " + b.state + " " + b.postalCode
    ensures lines[|lines| - 1] == b.country
    ensures Truthy(b.address1) <==> |lines| > 2 && lines[0] == b.address1
    ensures TruthyText(b.address3) ==> lines[|lines| - 3] == b.address3.value
    ensures TruthyText(b.address2) ==>
      lines[|lines| - 3 - (if TruthyText(b.address3) then 1 else 0)] == b.address2.value
  {
    (if Truthy(b.address1) then [b.address1] else [])
    + (if TruthyText(b.address2) then [b.address2.value] else [])
    + (if TruthyText(b.address3) then [b.address3.value] else [])
    + [b.city + ", " + b.state + " " + b.postalCode, b.country]
  }

  /** The modal for a record: each optional section appears exactly when its fields are truthy. */
  function Modal(b: Brewery): (v: ModalView)
    ensures v.title == b.name
    ensures v.badgeText == FormatBreweryType(b.breweryType)
    ensures v.badgeClasses == ModalColor(b.breweryType)
    ensures v.addressLines == ModalAddressLines(b)
    ensures v.phoneLink.Some? <==> TruthyText(b.phone)
    ensures v.phoneLink.Some? ==> v.phoneLink.value == "tel:" + b.phone.value
    ensures v.website.Some? <==> TruthyText(b.websiteUrl)
    ensures v.website.Some? ==> v.website == b.websiteUrl
    ensures v.coordinates.Some? <==> HasCoordinates(b)
    ensures v.coordinates.Some? ==> v.coordinates.value == (b.latitude.value, b.longitude.value)
  {
    ModalView(
      b.name,
      FormatBreweryType(b.breweryType),
      ModalColor(b.breweryType),
      ModalAddressLines(b),
      if TruthyText(b.phone) then Some("tel:" + b.phone.value) else None,
      if TruthyText(b.websiteUrl) then b.websiteUrl else None,
      if HasCoordinates(b) then Some((b.latitude.value, b.longitude.value)) else None)
  }

  /**
   The modal and the card of the same record agree: same badge text, the
   modal's badge classes extend the card's, and the modal shows the phone
   and website exactly when the card does.
   */
  lemma ModalAgreesWithCard(w: BreweryWithDistance)
    ensures var (m, c) := (Modal(w.brewery), Card(w));
      m.badgeText == c.badgeText
      && m.badgeClasses == c.badgeClasses + " border-" + BorderHue(w.brewery.breweryType) + "-200"
      && (m.phoneLink.Some? <==> c.phone.Some?)
      && (m.website.Some? <==> c.website)
  {
    ModalColorExtendsCard(w.brewery.breweryType);
  }

  /** A URL that opens the map at a coordinate pair rather than a search. */
  predicate IsCoordinatesUrl(url: string) {
    |url| >= |MapsEndpoint| + 3 && url[..|MapsEndpoint| + 3] == MapsEndpoint + "?q="
  }

  /**
   `Open in Maps` goes to a coordinate pair exactly when the modal shows the
   coordinates section, and then to those coordinates.
   */
  lemma MapsFollowsCoordinates(b: Brewery)
    ensures Modal(b).coordinates.Some? <==> OpenInMaps(b).Some? && IsCoordinatesUrl(OpenInMaps(b).value)
  {
    if HasCoordinates(b) {
      var url := CoordinatesUrl(b);
      assert url[..|MapsEndpoint| + 3] == MapsEndpoint + "?q=";
    } else if Truthy(b.address1) {
      SearchIsNotCoordinates(AddressSearchUrl(b));
    }
  }

  /** A URL on the search endpoint does not open the map at a coordinate pair. */
  lemma SearchIsNotCoordinates(url: string)
    requires |url| > |SearchEndpoint| && url[..|SearchEndpoint| + 1] == SearchEndpoint + "?"
    ensures !IsCoordinatesUrl(url)
  {
    var n := |MapsEndpoint|;
    assert SearchEndpoint[n] == '/';
    assert url[n] == url[..|SearchEndpoint| + 1][n];
    assert url[..n + 3][n] == '/';
    assert (MapsEndpoint + "?q=")[n] == '?';
  }
}

=== FILE: brewery_requests.dfy ===
/**
 The pure parts of the five asynchronous workflows of
 src/store/slices/brewerySlice.ts: the request URLs, the distance
 annotation of a filtered listing, the "within 10 miles, else anything"
 random pick, the suggestion short-circuit and name projection, and how an
 HTTP response becomes a fulfilled or rejected outcome. The network itself
 is an input (`Http`), as are `Math.random` (a real in [0, 1)) and the
 floating-point platform functions (`Platform`).
 */
module BreweryRequests {
  import opened Wrappers
  import opened Text
  import opened Uri
  import opened Types

  /** What `fetch` and `response.json()` produced. */
  datatype Http<T> =
    | Ok(body: T)                        // a 2xx response, parsed
    | NotOk                              // `!response.ok`
    | Thrown(message: Option<string>)    // fetch or JSON parsing threw

  /** How a workflow settles. `Rejected` carries the thrown error's message, if any. */
  datatype Outcome<T> = Fulfilled(payload: T) | Rejected(message: Option<string>)

  /** The optional arguments of `fetchBreweries`. */
  datatype ListParams = ListParams(
    page: Option<int>,
    perPage: Option<int>,
    search: Option<string>,
    city: Option<string>,
    state: Option<string>,
    breweryType: Option<string>)

  /** `{}`: every argument left to its default. */
  const NoParams := ListParams(None, None, None, None, None, None)

  const DefaultPage := 1
  const DefaultPerPage := 200

  // ---- request URLs ----

  /** The listing query keys, declared in the order the thunks append them. */
  datatype QueryKey = PageKey | PerPageKey | ByName | ByCity | ByState | ByDistance | ByType

  function KeyName(k: QueryKey): (name: string)
    ensures '&' !in name && '=' !in name && name != ""
  {
    match k
    case PageKey => "page"
    case PerPageKey => "per_page"
    case ByName => "by_name"
    case ByCity => "by_city"
    case ByState => "by_state"
    case ByDistance => "by_distance"
    case ByType => "by_type"
  }

  function KeyRank(k: QueryKey): nat {
    match k
    case PageKey => 0
    case PerPageKey => 1
    case ByName => 2
    case ByCity => 3
    case ByState => 4
    case ByDistance => 5
    case ByType => 6
  }

  lemma KeyRankInjective(k: QueryKey, k': QueryKey)
    requires KeyRank(k) == KeyRank(k')
    ensures k == k'
  {
  }

  lemma KeyNameInjective(k: QueryKey, k': QueryKey)
    requires KeyName(k) == KeyName(k')
    ensures k == k'
  {
  }

  /** One listing parameter before rendering. */
  datatype Arg = Arg(key: QueryKey, value: string)

  /**
   The thunks test their arguments in one fixed order and append a
   parameter for each truthy one. Slot `i` holds the parameter of rank
   `i`, or `None` where nothing is appended.
   */
  type Slots = seq<Option<Arg>>

  /** Slot `i` holds only a parameter of rank `offset + i`. */
  predicate RankedFrom(slots: Slots, offset: nat) {
    forall i :: 0 <= i < |slots| && slots[i].Some? ==> KeyRank(slots[i].value.key) == offset + i
  }

  /** A value that can stand after `=` in a query: non-empty and free of `&`. */
  predicate PlainValue(v: string) {
    '&' !in v && v != ""
  }

  /** An empty slot, or one holding a plain value. */
  predicate SlotPlain(slot: Option<Arg>) {
    slot.Some? ==> PlainValue(slot.value.value)
  }

  /** Every present slot holds a plain value. */
  predicate SlotsPlain(slots: Slots) {
    forall i :: 0 <= i < |slots| ==> SlotPlain(slots[i])
  }

  /** The appended parameters: the present slots, in slot order. */
  function Present(slots: Slots): (args: seq<Arg>)
    ensures |args| <= |slots|
  {
    if slots == [] then []
    else (if slots[0].Some? then [slots[0].value] else []) + Present(slots[1..])
  }

  /** Keys in canonical order, each at most once. */
  predicate InKeyOrder(args: seq<Arg>) {
    forall i, j :: 0 <= i < j < |args| ==> KeyRank(args[i].key) < KeyRank(args[j].key)
  }

  predicate RanksAtLeast(args: seq<Arg>, r: nat) {
    forall i :: 0 <= i < |args| ==> KeyRank(args[i].key) >= r
  }

  /** Every value is non-empty and free of `&`, so the query splits back into the same pairs. */
  predicate ValuesPlain(args: seq<Arg>) {
    forall i :: 0 <= i < |args| ==> PlainValue(args[i].value)
  }

  lemma {:induction false} PresentInOrder(slots: Slots, offset: nat)
    requires RankedFrom(slots, offset)
    ensures InKeyOrder(Present(slots)) && RanksAtLeast(Present(slots), offset)
  {
    if slots != [] {
      assert forall i :: 0 <= i < |slots[1..]| ==> slots[1..][i] == slots[i + 1];
      PresentInOrder(slots[1..], offset + 1);
    }
  }

  lemma {:induction false} PresentPlain(slots: Slots)
    ensures SlotsPlain(slots) ==> ValuesPlain(Present(slots))
  {
    if slots != [] && SlotsPlain(slots) {
      assert forall i :: 0 <= i < |slots[1..]| ==> slots[1..][i] == slots[i + 1];
      PresentPlain(slots[1..]);
    }
  }

  /** The rendered parameters, keys spelt out. */
  function ToParams(args: seq<Arg>): (ps: seq<Param>)
    ensures |ps| == |args|
    ensures forall i :: 0 <= i < |args| ==> ps[i] == Param(KeyName(args[i].key), args[i].value)
  {
    if args == [] then [] else [Param(KeyName(args[0].key), args[0].value)] + ToParams(args[1..])
  }

  /** The value held in the slot of `k`'s rank, if that slot is present. */
  function SlotValue(slots: Slots, offset: nat, k: QueryKey): Option<string> {
    if offset <= KeyRank(k) < offset + |slots| && slots[KeyRank(k) - offset].Some?
    then Some(slots[KeyRank(k) - offset].value.value)
    else None
  }

  lemma LookupCons(p: Param, ps: seq<Param>, key: string)
    ensures Lookup([p] + ps, key) == if p.key == key then Some(p.value) else Lookup(ps, key)
  {
    assert ([p] + ps)[1..] == ps;
  }

  /** A present first slot renders as the first parameter. */
  lemma PresentConsSome(slots: Slots)
    requires slots != [] && slots[0].Some?
    ensures ToParams(Present(slots)) ==
      [Param(KeyName(slots[0].value.key), slots[0].value.value)] + ToParams(Present(slots[1..]))
  {
    var rest := Present(slots[1..]);
    assert Present(slots) == [slots[0].value] + rest;
    assert ToParams([slots[0].value] + rest)[1..] == ToParams(rest);
  }

  /** An absent first slot renders as nothing. */
  lemma PresentConsNone(slots: Slots)
    requires slots != [] && slots[0].None?
    ensures ToParams(Present(slots)) == ToParams(Present(slots[1..]))
  {
    assert Present(slots) == Present(slots[1..]);
  }

  lemma SlotValueStep(slots: Slots, offset: nat, k: QueryKey)
    requires slots != []
    ensures KeyRank(k) != offset ==> SlotValue(slots, offset, k) == SlotValue(slots[1..], offset + 1, k)
    ensures KeyRank(k) == offset ==> SlotValue(slots[1..], offset + 1, k) == None
  {
  }

  /** What a reader of the rendered query finds under a key: the value in the slot of that rank. */
  lemma {:induction false} LookupPresent(slots: Slots, offset: nat, k: QueryKey)
    requires RankedFrom(slots, offset)
    ensures Lookup(ToParams(Present(slots)), KeyName(k)) == SlotValue(slots, offset, k)
  {
    if slots != [] {
      assert RankedFrom(slots[1..], offset + 1) by {
        assert forall i :: 0 <= i < |slots[1..]| ==> slots[1..][i] == slots[i + 1];
      }
      LookupPresent(slots[1..], offset + 1, k);
      assert slots[0].Some? ==> KeyRank(slots[0].value.key) == offset;
      LookupStep(slots, offset, k);
    }
  }

  /** One step of `LookupPresent`: the first slot either answers the lookup or passes it on. */
  lemma LookupStep(slots: Slots, offset: nat, k: QueryKey)
    requires slots != [] && (slots[0].Some? ==> KeyRank(slots[0].value.key) == offset)
    requires Lookup(ToParams(Present(slots[1..])), KeyName(k)) == SlotValue(slots[1..], offset + 1, k)
    ensures Lookup(ToParams(Present(slots)), KeyName(k)) == SlotValue(slots, offset, k)
  {
    SlotValueStep(slots, offset, k);
    if slots[0].Some? {
      PresentConsSome(slots);
      PresentSlotStep(slots, offset, k);
    } else {
      PresentConsNone(slots);
    }
  }

  /** The step for a present first slot: it answers its own key and passes every other one on. */
  lemma PresentSlotStep(slots: Slots, offset: nat, k: QueryKey)
    requires slots != [] && slots[0].Some? && KeyRank(slots[0].value.key) == offset
    requires ToParams(Present(slots)) ==
      [Param(KeyName(slots[0].value.key), slots[0].value.value)] + ToParams(Present(slots[1..]))
    requires KeyRank(k) != offset ==> SlotValue(slots, offset, k) == SlotValue(slots[1..], offset + 1, k)
    requires Lookup(ToParams(Present(slots[1..])), KeyName(k)) == SlotValue(slots[1..], offset + 1, k)
    ensures Lookup(ToParams(Present(slots)), KeyName(k)) == SlotValue(slots, offset, k)
  {
    var a := slots[0].value;
    var rest := ToParams(Present(slots[1..]));
    LookupCons(Param(KeyName(a.key), a.value), rest, KeyName(k));
    FirstSlotAnswers(a, k, offset);
    if KeyRank(k) == offset {
      assert Lookup(ToParams(Present(slots)), KeyName(k)) == Some(a.value);
    } else {
      assert Lookup(ToParams(Present(slots)), KeyName(k)) == Lookup(rest, KeyName(k));
    }
  }

  /** A present first slot of rank `offset` answers exactly the lookups of its own key. */
  lemma FirstSlotAnswers(a: Arg, k: QueryKey, offset: nat)
    requires KeyRank(a.key) == offset
    ensures KeyName(a.key) == KeyName(k) <==> KeyRank(k) == offset
  {
    if KeyName(a.key) == KeyName(k) {
      KeyNameInjective(a.key, k);
    } else if KeyRank(k) == offset {
      KeyRankInjective(a.key, k);
    }
  }

  /** A number in the query is its decimal text, which never holds `&`. */
  lemma DecimalIsPlain(n: int)
    ensures PlainValue(IntToDecimal(n))
  {
    var v := IntToDecimal(n);
    assert forall i :: 0 <= i < |v| ==> v[i] != '&';
  }

  /** `encodeURIComponent(value)`, the text after `&key=`, for a truthy value only. */
  function EncodedText(v: Option<string>): (e: Option<string>)
    ensures e.Some? <==> TruthyText(v)
    ensures e.Some? ==> e.value == EncodeComponent(v.value) && PlainValue(e.value)
  {
    if TruthyText(v) then
      EncodedHasNoDelimiters(v.value);
      Some(EncodeComponent(v.value))
    else None
  }

  /** Prepending a slot of rank `offset` to slots ranked from `offset + 1`. */
  lemma SlotCons(slot: Option<Arg>, rest: Slots, offset: nat)
    requires slot.Some? ==> KeyRank(slot.value.key) == offset
    requires RankedFrom(rest, offset + 1)
    ensures RankedFrom([slot] + rest, offset)
    ensures SlotPlain(slot) && SlotsPlain(rest) ==> SlotsPlain([slot] + rest)
  {
    assert forall i :: 1 <= i < |[slot] + rest| ==> ([slot] + rest)[i] == rest[i - 1];
  }

  /** The slot of key `k`: present exactly when there is a value. */
  function Tag(k: QueryKey, v: Option<string>): (slot: Option<Arg>)
    ensures slot.Some? <==> v.Some?
    ensures slot.Some? ==> slot.value == Arg(k, v.value)
  {
    if v.Some? then Some(Arg(k, v.value)) else None
  }

  /** One slot per query key, in rank order. */
  function SevenSlots(page: Option<string>, perPage: Option<string>, name: Option<string>, city: Option<string>,
                      state: Option<string>, distance: Option<string>, kind: Option<string>): (slots: Slots)
    ensures |slots| == 7 && RankedFrom(slots, 0)
    ensures slots == [Tag(PageKey, page), Tag(PerPageKey, perPage), Tag(ByName, name), Tag(ByCity, city),
                      Tag(ByState, state), Tag(ByDistance, distance), Tag(ByType, kind)]
  {
    [Tag(PageKey, page), Tag(PerPageKey, perPage), Tag(ByName, name), Tag(ByCity, city),
     Tag(ByState, state), Tag(ByDistance, distance), Tag(ByType, kind)]
  }

  /** The value each key finds among the seven slots: its own argument. */
  lemma SevenSlotValue(page: Option<string>, perPage: Option<string>, name: Option<string>, city: Option<string>,
                       state: Option<string>, distance: Option<string>, kind: Option<string>, k: QueryKey)
    ensures SlotValue(SevenSlots(page, perPage, name, city, state, distance, kind), 0, k) ==
      match k
      case PageKey => page
      case PerPageKey => perPage
      case ByName => name
      case ByCity => city
      case ByState => state
      case ByDistance => distance
      case ByType => kind
  {
  }

  lemma SevenPlain(slots: Slots)
    requires |slots| == 7
    ensures (SlotPlain(slots[0]) && SlotPlain(slots[1]) && SlotPlain(slots[2]) && SlotPlain(slots[3])
             && SlotPlain(slots[4]) && SlotPlain(slots[5]) && SlotPlain(slots[6])) ==> SlotsPlain(slots)
  {
  }

  /** The tests `fetchBreweries` makes, in order: page, per_page, name, city, state, type. */
  function BreweriesSlots(p: ListParams): (slots: Slots)
    ensures |slots| == 7 && RankedFrom(slots, 0) && SlotsPlain(slots)
  {
    DecimalIsPlain(p.page.GetOr(DefaultPage));
    DecimalIsPlain(p.perPage.GetOr(DefaultPerPage));
    var slots := SevenSlots(Some(IntToDecimal(p.page.GetOr(DefaultPage))),
                            Some(IntToDecimal(p.perPage.GetOr(DefaultPerPage))),
                            EncodedText(p.search), EncodedText(p.city), EncodedText(p.state),
                            None, EncodedText(p.breweryType));
    SevenPlain(slots);
    slots
  }

  /** The query `fetchBreweries` requests: `page` and `per_page`, then the truthy filters. */
  function BreweriesQuery(p: ListParams): (args: seq<Arg>)
    ensures |args| >= 2
    ensures args[0] == Arg(PageKey, IntToDecimal(p.page.GetOr(DefaultPage)))
    ensures args[1] == Arg(PerPageKey, IntToDecimal(p.perPage.GetOr(DefaultPerPage)))
    ensures InKeyOrder(args) && ValuesPlain(args)
  {
    var slots := BreweriesSlots(p);
    PresentInOrder(slots, 0);
    PresentPlain(slots);
    assert Present(slots) == [slots[0].value, slots[1].value] + Present(slots[2..]);
    Present(slots)
  }

  /** A URL built from parameters with plain values parses back into exactly those parameters. */
  lemma ArgsParseBack(endpoint: string, args: seq<Arg>)
    ensures '?' !in endpoint && ValuesPlain(args) ==>
      ParseQuery(QueryPart(RenderUrl(endpoint, ToParams(args)))) == ToParams(args)
  {
    if '?' !in endpoint && ValuesPlain(args) {
      var ps := ToParams(args);
      assert forall i :: 0 <= i < |ps| ==> Unambiguous(ps[i]);
      QueryPartOfUrl(endpoint, ps);
      ParseRenderQuery(ps);
    }
  }

  /** The `fetchBreweries` request URL: its query parses back into the listing parameters. */
  function BreweriesUrl(endpoint: string, p: ListParams): (url: string)
    ensures '?' !in endpoint ==> ParseQuery(QueryPart(url)) == ToParams(BreweriesQuery(p))
  {
    ArgsParseBack(endpoint, BreweriesQuery(p));
    RenderUrl(endpoint, ToParams(BreweriesQuery(p)))
  }

  /** Reading a rendered URL back: each key yields the value of its slot. */
  lemma ReadBackSlots(endpoint: string, slots: Slots, k: QueryKey)
    requires '?' !in endpoint && RankedFrom(slots, 0) && SlotsPlain(slots)
    ensures Lookup(ParseQuery(QueryPart(RenderUrl(endpoint, ToParams(Present(slots))))), KeyName(k))
            == SlotValue(slots, 0, k)
  {
    var args := Present(slots);
    var ps := ToParams(args);
    PresentPlain(slots);
    assert forall i :: 0 <= i < |ps| ==> Unambiguous(ps[i]);
    QueryPartOfUrl(endpoint, ps);
    ParseRenderQuery(ps);
    LookupPresent(slots, 0, k);
  }

  /**
   Reading the `fetchBreweries` URL back: `page` and `per_page` always
   appear with their decimal values, every other filter appears encoded
   exactly when it is truthy, and `by_distance` never appears.
   */
  lemma BreweriesReadBack(endpoint: string, p: ListParams, k: QueryKey)
    requires '?' !in endpoint
    ensures Lookup(ParseQuery(QueryPart(BreweriesUrl(endpoint, p))), KeyName(k)) ==
      match k
      case PageKey => Some(IntToDecimal(p.page.GetOr(DefaultPage)))
      case PerPageKey => Some(IntToDecimal(p.perPage.GetOr(DefaultPerPage)))
      case ByName => EncodedText(p.search)
      case ByCity => EncodedText(p.city)
      case ByState => EncodedText(p.state)
      case ByDistance => None
      case ByType => EncodedText(p.breweryType)
  {
    ReadBackSlots(endpoint, BreweriesSlots(p), k);
    SevenSlotValue(Some(IntToDecimal(p.page.GetOr(DefaultPage))), Some(IntToDecimal(p.perPage.GetOr(DefaultPerPage))),
                   EncodedText(p.search), EncodedText(p.city), EncodedText(p.state), None, EncodedText(p.breweryType), k);
  }

  /** `${userLocation?.latitude},${userLocation?.longitude}`: `undefined,undefined` without a location. */
  function LocationText(plat: Platform, loc: Option<UserLocation>): string {
    match loc
    case None => "undefined,undefined"
    case Some(l) => plat.numberText(l.latitude) + "," + plat.numberText(l.longitude)
  }

  /** The platform's number rendering never produces a query delimiter. */
  ghost predicate NumbersArePlain(plat: Platform) {
    forall x: real :: '&' !in plat.numberText(x)
  }

  lemma LocationTextIsPlain(plat: Platform, loc: Option<UserLocation>)
    ensures LocationText(plat, loc) != ""
    ensures NumbersArePlain(plat) ==> PlainValue(LocationText(plat, loc))
  {
    var v := LocationText(plat, loc);
    if NumbersArePlain(plat) && loc.Some? {
      var a, b := plat.numberText(loc.value.latitude), plat.numberText(loc.value.longitude);
      forall i | 0 <= i < |v| ensures v[i] != '&' {
        if i < |a| {
          assert v[i] == a[i] && a[i] in a;
        } else if i > |a| {
          assert v[i] == b[i - |a| - 1] && b[i - |a| - 1] in b;
        }
      }
    }
  }

  /** `lat,lon` (unencoded), the text after `&by_distance=`, for a truthy distance filter only. */
  function DistanceText(f: BreweryFilters, loc: Option<UserLocation>, plat: Platform): (v: Option<string>)
    ensures v.Some? <==> TruthyInt(f.distance)
    ensures v.Some? ==> v.value == LocationText(plat, loc)
  {
    if TruthyInt(f.distance) then Some(LocationText(plat, loc)) else None
  }

  /** The tests `fetchBreweriesWithFilters` makes, in order: per_page, name, city, state, distance, type. */
  function FilteredSlots(f: BreweryFilters, loc: Option<UserLocation>, plat: Platform): (slots: Slots)
    ensures |slots| == 7 && RankedFrom(slots, 0)
    ensures slots[1] == Some(Arg(PerPageKey, IntToDecimal(DefaultPerPage)))
    ensures slots[5] == Tag(ByDistance, DistanceText(f, loc, plat))
    ensures SlotPlain(slots[5]) ==> SlotsPlain(slots)
  {
    SlotsWithPerPage(f, loc, plat, DefaultPerPage)
  }

  /** The `fetchBreweriesWithFilters` slots for a given `per_page` value. */
  function SlotsWithPerPage(f: BreweryFilters, loc: Option<UserLocation>, plat: Platform, perPage: int): (slots: Slots)
    ensures |slots| == 7 && RankedFrom(slots, 0)
    ensures slots[0] == None && slots[1] == Some(Arg(PerPageKey, IntToDecimal(perPage)))
    ensures slots[5] == Tag(ByDistance, DistanceText(f, loc, plat))
    ensures SlotPlain(slots[5]) ==> SlotsPlain(slots)
  {
    DecimalIsPlain(perPage);
    var slots := SevenSlots(None, Some(IntToDecimal(perPage)),
                            EncodedText(Some(f.search)), EncodedText(Some(f.city)), EncodedText(Some(f.state)),
                            DistanceText(f, loc, plat), EncodedText(Some(f.breweryType)));
    SevenPlain(slots);
    slots
  }

  /** The query `fetchBreweriesWithFilters` requests: `per_page=200` (no `page`), then the truthy filters. */
  function FilteredQuery(f: BreweryFilters, loc: Option<UserLocation>, plat: Platform): (args: seq<Arg>)
    ensures |args| >= 1
    ensures args[0] == Arg(PerPageKey, IntToDecimal(DefaultPerPage))
    ensures InKeyOrder(args)
    ensures NumbersArePlain(plat) ==> ValuesPlain(args)
  {
    var slots := FilteredSlots(f, loc, plat);
    LocationTextIsPlain(plat, loc);
    PresentInOrder(slots, 0);
    PresentPlain(slots);
    assert Present(slots) == [slots[1].value] + Present(slots[2..]);
    Present(slots)
  }

  /**
   The `fetchBreweriesWithFilters` request URL: its query parses back into
   the filtered parameters whenever the location renders without `&`.
   */
  function FilteredUrl(endpoint: string, f: BreweryFilters, loc: Option<UserLocation>, plat: Platform): (url: string)
    ensures '?' !in endpoint && NumbersArePlain(plat) ==>
      ParseQuery(QueryPart(url)) == ToParams(FilteredQuery(f, loc, plat))
  {
    ArgsParseBack(endpoint, FilteredQuery(f, loc, plat));
    RenderUrl(endpoint, ToParams(FilteredQuery(f, loc, plat)))
  }

  /**
   Reading the `fetchBreweriesWithFilters` URL back: `page` never appears,
   `per_page` is always 200, the text filters appear encoded when truthy,
   and `by_distance` carries the location text exactly when the distance
   filter is truthy.
   */
  lemma FilteredReadBack(endpoint: string, f: BreweryFilters, loc: Option<UserLocation>, plat: Platform, k: QueryKey)
    requires '?' !in endpoint && NumbersArePlain(plat)
    ensures Lookup(ParseQuery(QueryPart(FilteredUrl(endpoint, f, loc, plat))), KeyName(k)) ==
      match k
      case PageKey => None
      case PerPageKey => Some(IntToDecimal(DefaultPerPage))
      case ByName => EncodedText(Some(f.search))
      case ByCity => EncodedText(Some(f.city))
      case ByState => EncodedText(Some(f.state))
      case ByDistance => if TruthyInt(f.distance) then Some(LocationText(plat, loc)) else None
      case ByType => EncodedText(Some(f.breweryType))
  {
    LocationTextIsPlain(plat, loc);
    ReadBackSlots(endpoint, FilteredSlots(f, loc, plat), k);
    SevenSlotValue(None, Some(IntToDecimal(DefaultPerPage)),
                   EncodedText(Some(f.search)), EncodedText(Some(f.city)), EncodedText(Some(f.state)),
                   DistanceText(f, loc, plat), EncodedText(Some(f.breweryType)), k);
  }

  /** The `fetchBreweryById` request URL: the id is appended unencoded. */
  function ByIdUrl(endpoint: string, id: string): (u: string)
    ensures |u| == |endpoint| + 1 + |id|
    ensures u[..|endpoint|] == endpoint && u[|endpoint|] == '/' && u[|endpoint| + 1..] == id
  {
    endpoint + "/" + id
  }

  /**
   The `fetchRandomBrewery` request URL: its query parses back into the one
   `by_dist` parameter whenever the location renders without `&`.
   */
  function RandomUrl(endpoint: string, plat: Platform, loc: UserLocation): (url: string)
    ensures '?' !in endpoint && NumbersArePlain(plat) ==>
      ParseQuery(QueryPart(url)) == [Param("by_dist", LocationText(plat, Some(loc)))]
  {
    RandomParse(endpoint, plat, loc);
    RenderUrl(endpoint + "/random", [Param("by_dist", LocationText(plat, Some(loc)))])
  }

  lemma RandomParse(endpoint: string, plat: Platform, loc: UserLocation)
    ensures '?' !in endpoint && NumbersArePlain(plat) ==>
      var ps := [Param("by_dist", LocationText(plat, Some(loc)))];
      ParseQuery(QueryPart(RenderUrl(endpoint + "/random", ps))) == ps
  {
    if '?' !in endpoint && NumbersArePlain(plat) {
      NoQueryMark(endpoint, "/random");
      var ps := [Param("by_dist", LocationText(plat, Some(loc)))];
      QueryPartOfUrl(endpoint + "/random", ps);
      LocationTextIsPlain(plat, Some(loc));
      ParseRenderQuery(ps);
    }
  }

  /**
   The `fetchSuggestions` request URL: its query parses back into `query`,
   holding the encoded text, then `per_page`.
   */
  function SuggestionsUrl(endpoint: string, q: string): (url: string)
    ensures '?' !in endpoint ==>
      ParseQuery(QueryPart(url)) == [Param("query", EncodeComponent(q)), Param("per_page", "200")]
  {
    SuggestionsParse(endpoint, q);
    RenderUrl(endpoint + "/search", [Param("query", EncodeComponent(q)), Param("per_page", "200")])
  }

  /** An endpoint without `?` keeps none after a path suffix without one. */
  lemma NoQueryMark(endpoint: string, suffix: string)
    requires '?' !in endpoint && '?' !in suffix
    ensures '?' !in endpoint + suffix
  {
    assert forall c :: c in endpoint + suffix ==> c in endpoint || c in suffix;
  }

  /** The random request carries the location, as the filtered request renders it, under `by_dist`. */
  lemma RandomReadBack(endpoint: string, plat: Platform, loc: UserLocation)
    requires '?' !in endpoint && NumbersArePlain(plat)
    ensures var ps := ParseQuery(QueryPart(RandomUrl(endpoint, plat, loc)));
      Keys(ps) == ["by_dist"] && Lookup(ps, "by_dist") == Some(LocationText(plat, Some(loc)))
  {
  }

  /**
   The suggestions request carries the query text intact under `query`,
   whatever characters it contains, and asks for 200 results.
   */
  lemma SuggestionsReadBack(endpoint: string, q: string)
    requires '?' !in endpoint
    ensures var ps := ParseQuery(QueryPart(SuggestionsUrl(endpoint, q)));
      Keys(ps) == ["query", "per_page"]
      && Lookup(ps, "per_page") == Some(IntToDecimal(DefaultPerPage))
      && Lookup(ps, "query").Some? && DecodeComponent(Lookup(ps, "query").value) == Some(q)
  {
    var ps := [Param("query", EncodeComponent(q)), Param("per_page", "200")];
    assert ps[1..] == [ps[1]];
    assert "per_page" != "query";
    PerPageText();
    DecodeEncode(q);
  }

  /** The suggestions parameters, rendered after the search path, parse back. */
  lemma SuggestionsParse(endpoint: string, q: string)
    ensures '?' !in endpoint ==>
      var ps := [Param("query", EncodeComponent(q)), Param("per_page", "200")];
      ParseQuery(QueryPart(RenderUrl(endpoint + "/search", ps))) == ps
  {
    if '?' !in endpoint {
      var ps := [Param("query", EncodeComponent(q)), Param("per_page", "200")];
      SuggestionsQueryPart(endpoint, q);
      SuggestionsUnambiguous(q);
      ParseRenderQuery(ps);
    }
  }

  /** The suggestions URL's query part is the rendered parameters. */
  lemma SuggestionsQueryPart(endpoint: string, q: string)
    requires '?' !in endpoint
    ensures var ps := [Param("query", EncodeComponent(q)), Param("per_page", "200")];
      QueryPart(RenderUrl(endpoint + "/search", ps)) == RenderQuery(ps)
  {
    NoQueryMark(endpoint, "/search");
    QueryPartOfUrl(endpoint + "/search", [Param("query", EncodeComponent(q)), Param("per_page", "200")]);
  }

  /** Neither suggestions parameter holds a query delimiter. */
  lemma SuggestionsUnambiguous(q: string)
    ensures var ps := [Param("query", EncodeComponent(q)), Param("per_page", "200")];
      forall i :: 0 <= i < |ps| ==> Unambiguous(ps[i])
  {
    EncodedHasNoDelimiters(q);
    assert Unambiguous(Param("per_page", "200"));
  }

  /** The default page size, rendered. */
  lemma PerPageText()
    ensures IntToDecimal(DefaultPerPage) == "200"
  {
    assert NatToDecimal(2) == "2";
    assert NatToDecimal(20) == NatToDecimal(2) + "0";
    assert NatToDecimal(200) == NatToDecimal(20) + "0";
  }

  // ---- distance annotation ----

  /** `{ ...brewery, distance }` for records with both coordinates, the record alone otherwise. */
  function AnnotateAll(body: seq<Brewery>, plat: Platform, loc: UserLocation): (r: seq<BreweryWithDistance>)
    ensures |r| == |body|
    ensures forall i :: 0 <= i < |body| ==> r[i].brewery == body[i]
    ensures forall i :: 0 <= i < |body| ==>
      (r[i].distance.Some? <==> HasCoordinates(body[i]))
    ensures forall i :: 0 <= i < |body| && HasCoordinates(body[i]) ==>
      r[i].distance == Some(DistanceTo(plat, loc, body[i]))
  {
    if body == [] then []
    else
      var b := body[0];
      var head := if HasCoordinates(b) then WithDistance(b, Some(DistanceTo(plat, loc, b))) else Plain(b);
      [head] + AnnotateAll(body[1..], plat, loc)
  }

  /** Every record without a distance attached. */
  function PlainAll(body: seq<Brewery>): (r: seq<BreweryWithDistance>)
    ensures |r| == |body|
    ensures forall i :: 0 <= i < |body| ==> r[i] == Plain(body[i])
  {
    if body == [] then [] else [Plain(body[0])] + PlainAll(body[1..])
  }

  /**
   The listing `fetchBreweriesWithFilters` returns: distances are attached
   only when the distance filter is truthy and a location is known, and no
   record is ever removed or reordered.
   */
  function WithDistances(body: seq<Brewery>, f: BreweryFilters, loc: Option<UserLocation>, plat: Platform)
    : (r: seq<BreweryWithDistance>)
    ensures |r| == |body|
    ensures forall i :: 0 <= i < |body| ==> r[i].brewery == body[i]
    ensures forall i :: 0 <= i < |body| ==>
      (r[i].distance.Some? <==> TruthyInt(f.distance) && loc.Some? && HasCoordinates(body[i]))
    ensures forall i :: 0 <= i < |body| && r[i].distance.Some? ==>
      r[i].distance.value == DistanceTo(plat, loc.value, body[i])
  {
    if TruthyInt(f.distance) && loc.Some? then AnnotateAll(body, plat, loc.value) else PlainAll(body)
  }

  // ---- random pick ----

  /** Within 10 miles, inclusive; a record without coordinates is never nearby. */
  predicate Nearby(plat: Platform, loc: UserLocation, b: Brewery) {
    HasCoordinates(b) && DistanceTo(plat, loc, b) <= 10.0
  }

  /** `breweries.filter(...)` with the nearby test: the nearby records, in order. */
  function NearbyCandidates(cands: seq<Brewery>, plat: Platform, loc: UserLocation): (r: seq<Brewery>)
    ensures |r| <= |cands|
    ensures forall b :: b in r <==> b in cands && Nearby(plat, loc, b)
  {
    if cands == [] then []
    else
      var rest := NearbyCandidates(cands[1..], plat, loc);
      assert forall b :: b in cands <==> b == cands[0] || b in cands[1..];
      if Nearby(plat, loc, cands[0]) then [cands[0]] + rest else rest
  }

  /** `Math.floor(Math.random() * n)` for a draw `r` in [0, 1). */
  function PickIndex(n: nat, r: real): (k: nat)
    requires 0.0 <= r < 1.0
    requires n > 0
    ensures k < n
  {
    var x := r * n as real;
    assert 0.0 <= x < n as real;
    x.Floor
  }

  /** Every index can be drawn: the draw `k / n` selects index `k`. */
  lemma EveryIndexReachable(n: nat, k: nat)
    requires k < n
    ensures 0.0 <= k as real / n as real < 1.0
    ensures PickIndex(n, k as real / n as real) == k
  {
    var r := k as real / n as real;
    assert r * n as real == k as real;
  }

  /** `list[Math.floor(Math.random() * list.length)]`: `undefined` for an empty list. */
  function PickFrom(list: seq<Brewery>, r: real): (pick: Option<Brewery>)
    requires 0.0 <= r < 1.0
    ensures pick.None? <==> list == []
    ensures pick.Some? ==> pick.value in list
  {
    if list == [] then None else Some(list[PickIndex(|list|, r)])
  }

  /**
   The random-brewery choice: a nearby record when there is one, otherwise
   any candidate, and `undefined` (not an error) when there are none.
   */
  function PickRandom(cands: seq<Brewery>, plat: Platform, loc: UserLocation, r: real): (pick: Option<Brewery>)
    requires 0.0 <= r < 1.0
    ensures pick.None? <==> cands == []
    ensures pick.Some? ==> pick.value in cands
    ensures (exists b :: b in cands && Nearby(plat, loc, b)) ==> pick.Some? && Nearby(plat, loc, pick.value)
  {
    var nearby := NearbyCandidates(cands, plat, loc);
    if nearby == [] then PickFrom(cands, r) else PickFrom(nearby, r)
  }

  // ---- suggestions ----

  /** `breweries.map((brewery) => brewery.name)`. */
  function Names(body: seq<Brewery>): (names: seq<string>)
    ensures |names| == |body|
    ensures forall i :: 0 <= i < |body| ==> names[i] == body[i].name
  {
    if body == [] then [] else [body[0].name] + Names(body[1..])
  }

  // ---- thunk outcomes ----

  const ListError := "Failed to fetch breweries"
  const DetailError := "Failed to fetch brewery details"
  const RandomError := "Failed to fetch random brewery"
  const SuggestionsError := "Failed to fetch suggestions"

  /** A failed response becomes a rejection: the fixed message for `!ok`, else what was thrown. */
  function Settle<T, U>(resp: Http<T>, okMessage: string, onBody: T -> U): (o: Outcome<U>)
    ensures resp.Ok? <==> o.Fulfilled?
    ensures resp.Ok? ==> o.payload == onBody(resp.body)
    ensures resp.NotOk? ==> o == Rejected(Some(okMessage))
    ensures resp.Thrown? ==> o == Rejected(resp.message)
  {
    match resp
    case Ok(body) => Fulfilled(onBody(body))
    case NotOk => Rejected(Some(okMessage))
    case Thrown(m) => Rejected(m)
  }

  /** `fetchBreweries`: the response list, records as fetched. */
  function RunFetchBreweries(resp: Http<seq<Brewery>>): (o: Outcome<seq<BreweryWithDistance>>)
    ensures resp.Ok? ==> o == Fulfilled(PlainAll(resp.body))
    ensures resp.NotOk? ==> o == Rejected(Some(ListError))
    ensures resp.Thrown? ==> o == Rejected(resp.message)
  {
    Settle(resp, ListError, PlainAll)
  }

  /** `fetchBreweriesWithFilters`, with the store's location read when it runs. */
  function RunFetchFiltered(f: BreweryFilters, loc: Option<UserLocation>, plat: Platform, resp: Http<seq<Brewery>>)
    : (o: Outcome<seq<BreweryWithDistance>>)
    ensures resp.Ok? ==> o.Fulfilled? && |o.payload| == |resp.body|
    ensures resp.Ok? ==> forall i :: 0 <= i < |resp.body| ==> o.payload[i].brewery == resp.body[i]
    ensures resp.Ok? ==> o == Fulfilled(WithDistances(resp.body, f, loc, plat))
    ensures resp.NotOk? ==> o == Rejected(Some(ListError))
    ensures resp.Thrown? ==> o == Rejected(resp.message)
  {
    Settle(resp, ListError, (body: seq<Brewery>) => WithDistances(body, f, loc, plat))
  }

  /** `fetchBreweryById`. */
  function RunFetchById(resp: Http<Brewery>): (o: Outcome<Brewery>)
    ensures resp.Ok? ==> o == Fulfilled(resp.body)
    ensures resp.NotOk? ==> o == Rejected(Some(DetailError))
    ensures resp.Thrown? ==> o == Rejected(resp.message)
  {
    Settle(resp, DetailError, (b: Brewery) => b)
  }

  /** `fetchRandomBrewery`: an empty candidate list fulfils with `undefined`. */
  function RunFetchRandom(loc: UserLocation, plat: Platform, r: real, resp: Http<seq<Brewery>>)
    : (o: Outcome<Option<Brewery>>)
    requires 0.0 <= r < 1.0
    ensures resp.Ok? ==> o.Fulfilled? && (o.payload.None? <==> resp.body == [])
    ensures resp.Ok? && o.payload.Some? ==> o.payload.value in resp.body
    ensures resp.Ok? && (exists b :: b in resp.body && Nearby(plat, loc, b)) ==>
      o.payload.Some? && Nearby(plat, loc, o.payload.value)
    ensures resp.NotOk? ==> o == Rejected(Some(RandomError))
    ensures resp.Thrown? ==> o == Rejected(resp.message)
  {
    Settle(resp, RandomError, (cands: seq<Brewery>) => PickRandom(cands, plat, loc, r))
  }

  /**
   `fetchSuggestions`: a query shorter than two UTF-16 units fulfils with
   no names and no request; otherwise the response's names, in order.
   */
  function RunFetchSuggestions(q: string, resp: Http<seq<Brewery>>): (o: Outcome<seq<string>>)
    ensures Utf16Length(q) < 2 ==> o == Fulfilled([])
    ensures Utf16Length(q) >= 2 ==> (o.Fulfilled? <==> resp.Ok?)
    ensures Utf16Length(q) >= 2 && resp.Ok? ==> o.payload == Names(resp.body)
    ensures Utf16Length(q) >= 2 && resp.NotOk? ==> o == Rejected(Some(SuggestionsError))
    ensures Utf16Length(q) >= 2 && resp.Thrown? ==> o == Rejected(resp.message)
  {
    if Utf16Length(q) < 2 then Fulfilled([]) else Settle(resp, SuggestionsError, Names)
  }
}

=== FILE: brewery_slice.dfy ===
/**
 The brewery store: its state, the five plain reducers, the life-cycle
 cases of the five request workflows, and the invariants every action
 keeps. A request workflow is seen by the store as a `Pending` action
 followed, later, by its fulfilment or its rejection.
 */
module BrewerySlice {
  import opened Wrappers
  import opened Types
  import opened BreweryRequests

  /** The store's state; `itemsPerPage` never changes and is the constant below. */
  datatype State = State(
    breweries: seq<BreweryWithDistance>,
    filteredBreweries: seq<BreweryWithDistance>,
    selectedBrewery: Option<Brewery>,
    randomBrewery: Option<Brewery>,
    loading: bool,
    error: Option<string>,
    filters: BreweryFilters,
    userLocation: Option<UserLocation>,
    suggestions: seq<string>,
    currentPage: int,
    totalPages: int)

  const ItemsPerPage := 12

  const Init := State([], [], None, None, false, None, InitialFilters, None, [], 1, 1)

  /** `Math.ceil(length / itemsPerPage)`: the fewest pages of twelve that hold `n` records. */
  function PageCount(n: nat): (t: nat)
    ensures t * ItemsPerPage >= n
    ensures t > 0 ==> (t - 1) * ItemsPerPage < n
    ensures t == 0 <==> n == 0
  {
    (n + ItemsPerPage - 1) / ItemsPerPage
  }

  // ---- partial filter updates ----

  /** `Partial<BreweryFilters>`: a field is `None` when the payload does not mention it. */
  datatype FilterPatch = FilterPatch(
    search: Option<string>,
    city: Option<string>,
    state: Option<string>,
    distance: Option<Option<int>>,
    breweryType: Option<string>)

  const EmptyPatch := FilterPatch(None, None, None, None, None)

  /** A patch that mentions every field, with the values of `f`. */
  function FullPatch(f: BreweryFilters): FilterPatch {
    FilterPatch(Some(f.search), Some(f.city), Some(f.state), Some(f.distance), Some(f.breweryType))
  }

  /**
   `{ ...filters, ...patch }`. The spread leaves the filters as they were
   exactly when every field the patch mentions already holds that value.
   */
  function Merge(f: BreweryFilters, p: FilterPatch): (r: BreweryFilters)
    ensures r == f <==>
      (p.search.None? || p.search.value == f.search)
      && (p.city.None? || p.city.value == f.city)
      && (p.state.None? || p.state.value == f.state)
      && (p.distance.None? || p.distance.value == f.distance)
      && (p.breweryType.None? || p.breweryType.value == f.breweryType)
  {
    BreweryFilters(
      p.search.GetOr(f.search),
      p.city.GetOr(f.city),
      p.state.GetOr(f.state),
      p.distance.GetOr(f.distance),
      p.breweryType.GetOr(f.breweryType))
  }

  /** Two successive spreads, as one patch: the later patch's fields win. */
  function Then(p: FilterPatch, q: FilterPatch): FilterPatch {
    FilterPatch(
      if q.search.Some? then q.search else p.search,
      if q.city.Some? then q.city else p.city,
      if q.state.Some? then q.state else p.state,
      if q.distance.Some? then q.distance else p.distance,
      if q.breweryType.Some? then q.breweryType else p.breweryType)
  }

  /**
   The spread laws: the empty patch changes nothing, a full patch replaces
   everything, merging twice is merging the combined patch, and merging the
   same patch again changes nothing more.
   */
  lemma MergeLaws(f: BreweryFilters, g: BreweryFilters, p: FilterPatch, q: FilterPatch)
    ensures Merge(f, EmptyPatch) == f
    ensures Merge(g, FullPatch(f)) == f
    ensures Merge(Merge(f, p), q) == Merge(f, Then(p, q))
    ensures Merge(Merge(f, p), p) == Merge(f, p)
  {
  }

  /** A field the patch does not mention keeps its value; one it mentions takes the patch's. */
  lemma MergeFields(f: BreweryFilters, p: FilterPatch)
    ensures p.search.None? ==> Merge(f, p).search == f.search
    ensures p.search.Some? ==> Merge(f, p).search == p.search.value
    ensures p.city.None? ==> Merge(f, p).city == f.city
    ensures p.city.Some? ==> Merge(f, p).city == p.city.value
    ensures p.state.None? ==> Merge(f, p).state == f.state
    ensures p.state.Some? ==> Merge(f, p).state == p.state.value
    ensures p.distance.None? ==> Merge(f, p).distance == f.distance
    ensures p.distance.Some? ==> Merge(f, p).distance == p.distance.value
    ensures p.breweryType.None? ==> Merge(f, p).breweryType == f.breweryType
    ensures p.breweryType.Some? ==> Merge(f, p).breweryType == p.breweryType.value
  {
  }

  // ---- actions ----

  /** The five request workflows. */
  datatype Workflow = ListFetch | FilteredFetch | DetailFetch | RandomFetch | SuggestionsFetch

  datatype Action =
    | SetFilters(patch: FilterPatch)
    | SetUserLocation(location: UserLocation)
    | SetCurrentPage(page: int)
    | ClearError
    | ClearSuggestions
    | Pending(workflow: Workflow)
    | ListFulfilled(filtered: bool, list: seq<BreweryWithDistance>)
    | DetailFulfilled(brewery: Brewery)
    | RandomFulfilled(pick: Option<Brewery>)
    | SuggestionsFulfilled(names: seq<string>)
    | Failed(failed: Workflow, message: Option<string>)

  /** `action.error.message || fallback`: an absent or empty message gives the fallback. */
  function ErrorText(message: Option<string>, fallback: string): (e: string)
    ensures message.Some? && message.value != "" ==> e == message.value
    ensures message.None? || message.value == "" ==> e == fallback
  {
    if message.Some? && message.value != "" then message.value else fallback
  }

  /** The fallback message each workflow's rejection case uses. */
  function Fallback(w: Workflow): string {
    match w
    case ListFetch => ListError
    case FilteredFetch => ListError
    case DetailFetch => DetailError
    case RandomFetch => RandomError
    case SuggestionsFetch => SuggestionsError
  }

  /** The workflows whose life-cycle drives the `loading` flag. */
  predicate Tracked(w: Workflow) {
    w == ListFetch || w == FilteredFetch || w == DetailFetch
  }

  /** A pending request: only the tracked workflows have a pending case. */
  function OnPending(s: State, w: Workflow): (r: State)
    ensures Tracked(w) ==> r.loading && r.error == None
    ensures !Tracked(w) ==> r == s
    ensures r.(loading := s.loading, error := s.error) == s
  {
    if Tracked(w) then s.(loading := true, error := None) else s
  }

  /** A listing arrived: both lists take it, and the page count follows its length. */
  function OnListFulfilled(s: State, filtered: bool, list: seq<BreweryWithDistance>): (r: State)
    ensures !r.loading && r.breweries == list && r.filteredBreweries == list
    ensures r.totalPages == PageCount(|list|)
    ensures r.currentPage == if filtered then 1 else s.currentPage
    ensures r.error == s.error && r.filters == s.filters && r.suggestions == s.suggestions
    ensures r.selectedBrewery == s.selectedBrewery && r.randomBrewery == s.randomBrewery
  {
    var t := s.(loading := false, breweries := list, filteredBreweries := list, totalPages := PageCount(|list|));
    if filtered then t.(currentPage := 1) else t
  }

  /** A rejected request; the random and suggestions workflows leave `loading` alone. */
  function OnRejected(s: State, w: Workflow, message: Option<string>): (r: State)
    ensures w == SuggestionsFetch ==> r == s.(suggestions := [])
    ensures w != SuggestionsFetch ==> r.error == Some(ErrorText(message, Fallback(w)))
    ensures Tracked(w) ==> !r.loading
    ensures !Tracked(w) ==> r.loading == s.loading
    ensures r.breweries == s.breweries && r.filteredBreweries == s.filteredBreweries
    ensures r.totalPages == s.totalPages && r.currentPage == s.currentPage && r.filters == s.filters
  {
    match w
    case SuggestionsFetch => s.(suggestions := [])
    case RandomFetch => s.(error := Some(ErrorText(message, RandomError)))
    case _ => s.(loading := false, error := Some(ErrorText(message, Fallback(w))))
  }

  /**
   The store's reducer: one action, one new state. Each field has its own
   writers: an action that is not among them leaves the field as it was.
   */
  function Reduce(s: State, a: Action): (r: State)
    ensures r.filters != s.filters ==> a.SetFilters?
    ensures r.userLocation != s.userLocation ==> a.SetUserLocation?
    ensures r.currentPage != s.currentPage ==> a.SetFilters? || a.SetCurrentPage? || (a.ListFulfilled? && a.filtered)
    ensures r.breweries != s.breweries || r.filteredBreweries != s.filteredBreweries || r.totalPages != s.totalPages
      ==> a.ListFulfilled?
    ensures r.selectedBrewery != s.selectedBrewery ==> a.DetailFulfilled?
    ensures r.randomBrewery != s.randomBrewery ==> a.RandomFulfilled?
    ensures r.suggestions != s.suggestions ==>
      a.ClearSuggestions? || a.SuggestionsFulfilled? || (a.Failed? && a.failed == SuggestionsFetch)
  {
    match a
    case SetFilters(p) => s.(filters := Merge(s.filters, p), currentPage := 1)
    case SetUserLocation(loc) => s.(userLocation := Some(loc))
    case SetCurrentPage(page) => s.(currentPage := page)
    case ClearError => s.(error := None)
    case ClearSuggestions => s.(suggestions := [])
    case Pending(w) => OnPending(s, w)
    case ListFulfilled(filtered, list) => OnListFulfilled(s, filtered, list)
    case DetailFulfilled(b) => s.(loading := false, selectedBrewery := Some(b))
    case RandomFulfilled(pick) => s.(randomBrewery := pick)
    case SuggestionsFulfilled(names) => s.(suggestions := names)
    case Failed(w, message) => OnRejected(s, w, message)
  }

  /** Actions applied in order. */
  function ReduceAll(s: State, actions: seq<Action>): State
    decreases |actions|
  {
    if actions == [] then s else ReduceAll(Reduce(s, actions[0]), actions[1..])
  }

  /** A request's two actions, applied in order. */
  lemma ReduceTwo(s: State, a: Action, b: Action)
    ensures ReduceAll(s, [a, b]) == Reduce(Reduce(s, a), b)
  {
    var s1 := Reduce(s, a);
    assert [a, b][0] == a && [a, b][1..] == [b];
    assert ReduceAll(s, [a, b]) == ReduceAll(s1, [b]);
    assert [b][0] == b && [b][1..] == [];
    assert ReduceAll(s1, [b]) == ReduceAll(Reduce(s1, b), []);
  }

  // ---- invariants ----

  /**
   What every reachable state satisfies: the two lists are the same list,
   and the page count is the one its length needs, except for the initial
   single page over an empty list.
   */
  predicate Inv(s: State) {
    s.breweries == s.filteredBreweries
    && (s.totalPages == PageCount(|s.filteredBreweries|) || (s.filteredBreweries == [] && s.totalPages == 1))
  }

  /** Every action keeps the invariant. */
  lemma ReducePreservesInv(s: State, a: Action)
    requires Inv(s)
    ensures Inv(Reduce(s, a))
  {
  }

  /** Any run of actions from the initial state ends in a state satisfying the invariant. */
  lemma {:induction false} ReduceAllPreservesInv(s: State, actions: seq<Action>)
    requires Inv(s)
    ensures Inv(ReduceAll(s, actions))
    decreases |actions|
  {
    if actions != [] {
      ReducePreservesInv(s, actions[0]);
      ReduceAllPreservesInv(Reduce(s, actions[0]), actions[1..]);
    }
  }

  lemma InitSatisfiesInv()
    ensures Inv(Init) && !Init.loading && Init.error == None && Init.currentPage == 1
  {
  }

  /** Changing the filters always returns to the first page, and changes nothing else. */
  lemma SetFiltersResetsPage(s: State, p: FilterPatch)
    ensures Reduce(s, SetFilters(p)).currentPage == 1
    ensures Reduce(s, SetFilters(p)) == s.(filters := Merge(s.filters, p), currentPage := 1)
  {
  }

  /**
   The other four plain reducers each write one field and nothing else;
   `setCurrentPage` stores the page as given, without clamping it.
   */
  lemma PlainReducers(s: State, loc: UserLocation, page: int)
    ensures Reduce(s, SetUserLocation(loc)) == s.(userLocation := Some(loc))
    ensures Reduce(s, SetCurrentPage(page)) == s.(currentPage := page)
    ensures Reduce(s, ClearError) == s.(error := None)
    ensures Reduce(s, ClearSuggestions) == s.(suggestions := [])
  {
  }

  /** Only the tracked workflows' life-cycle actions move the `loading` flag. */
  lemma LoadingMovesOnlyWithTrackedWorkflows(s: State, a: Action)
    requires Reduce(s, a).loading != s.loading
    ensures a.Pending? || a.ListFulfilled? || a.DetailFulfilled? || a.Failed?
    ensures a.Pending? ==> Tracked(a.workflow)
    ensures a.Failed? ==> Tracked(a.failed)
  {
  }

  /** An error is only ever set by a rejection, and only cleared by a pending tracked request or `clearError`. */
  lemma ErrorMovesOnlyWithRejections(s: State, a: Action)
    requires Reduce(s, a).error != s.error
    ensures Reduce(s, a).error.Some? ==> a.Failed? && a.failed != SuggestionsFetch
    ensures Reduce(s, a).error.None? ==> a == ClearError || (a.Pending? && Tracked(a.workflow))
  {
  }

  // ---- request life-cycles ----

  /** The actions a listing request dispatches: pending, then its settlement. */
  function ListActions(filtered: bool, o: Outcome<seq<BreweryWithDistance>>): seq<Action> {
    var w := if filtered then FilteredFetch else ListFetch;
    [Pending(w), if o.Fulfilled? then ListFulfilled(filtered, o.payload) else Failed(w, o.message)]
  }

  /**
   A listing request, start to end: loading is over, and either the list,
   the page count and no error are in place, or the previous list stays
   with the error message.
   */
  lemma ListLifecycle(s: State, filtered: bool, o: Outcome<seq<BreweryWithDistance>>)
    ensures !ReduceAll(s, ListActions(filtered, o)).loading
    ensures o.Fulfilled? ==>
      var r := ReduceAll(s, ListActions(filtered, o));
      r.error == None && r.breweries == o.payload && r.filteredBreweries == o.payload && r.totalPages == PageCount(|o.payload|)
    ensures o.Rejected? ==>
      var r := ReduceAll(s, ListActions(filtered, o));
      r.error == Some(ErrorText(o.message, ListError)) && r.breweries == s.breweries
  {
    var w := if filtered then FilteredFetch else ListFetch;
    var a := if o.Fulfilled? then ListFulfilled(filtered, o.payload) else Failed(w, o.message);
    ReduceTwo(s, Pending(w), a);
  }

  /**
   `fetchBreweries` against the network: a successful response puts the
   fetched records, without distances, in both lists; a failed one keeps
   the list and reports the fixed message.
   */
  lemma FetchBreweriesEndToEnd(s: State, resp: Http<seq<Brewery>>)
    ensures resp.Ok? ==>
      var r := ReduceAll(s, ListActions(false, RunFetchBreweries(resp)));
      r.error == None && |r.breweries| == |resp.body|
      && (forall i :: 0 <= i < |resp.body| ==> r.breweries[i] == Plain(resp.body[i]))
    ensures resp.NotOk? ==>
      var r := ReduceAll(s, ListActions(false, RunFetchBreweries(resp)));
      r.error == Some(ListError) && r.breweries == s.breweries && !r.loading
  {
    ListLifecycle(s, false, RunFetchBreweries(resp));
  }

  /** A detail request, start to end: the record is selected and loading is over, or the error is set. */
  lemma DetailLifecycle(s: State, o: Outcome<Brewery>)
    ensures var r := ReduceAll(s, [Pending(DetailFetch), if o.Fulfilled? then DetailFulfilled(o.payload) else Failed(DetailFetch, o.message)]);
      !r.loading && r.breweries == s.breweries && r.filteredBreweries == s.filteredBreweries
      && (o.Fulfilled? ==> r.selectedBrewery == Some(o.payload) && r.error == None)
      && (o.Rejected? ==> r.selectedBrewery == s.selectedBrewery && r.error == Some(ErrorText(o.message, DetailError)))
  {
    var a := if o.Fulfilled? then DetailFulfilled(o.payload) else Failed(DetailFetch, o.message);
    ReduceTwo(s, Pending(DetailFetch), a);
  }

  /**
   A random pick, start to end: no pending case, so `loading` is never
   touched; only the pick, or only the error, changes.
   */
  lemma RandomLifecycle(s: State, o: Outcome<Option<Brewery>>)
    ensures var r := ReduceAll(s, [Pending(RandomFetch), if o.Fulfilled? then RandomFulfilled(o.payload) else Failed(RandomFetch, o.message)]);
      (o.Fulfilled? ==> r == s.(randomBrewery := o.payload))
      && (o.Rejected? ==> r == s.(error := Some(ErrorText(o.message, RandomError))))
  {
    var a := if o.Fulfilled? then RandomFulfilled(o.payload) else Failed(RandomFetch, o.message);
    ReduceTwo(s, Pending(RandomFetch), a);
  }

  /**
   Suggestions, start to end: only the list changes, and a failure empties
   it without reporting an error.
   */
  lemma SuggestionsLifecycle(s: State, o: Outcome<seq<string>>)
    ensures var r := ReduceAll(s, [Pending(SuggestionsFetch), if o.Fulfilled? then SuggestionsFulfilled(o.payload) else Failed(SuggestionsFetch, o.message)]);
      r == s.(suggestions := if o.Fulfilled? then o.payload else [])
  {
    var a := if o.Fulfilled? then SuggestionsFulfilled(o.payload) else Failed(SuggestionsFetch, o.message);
    ReduceTwo(s, Pending(SuggestionsFetch), a);
  }
}

=== FILE: filters.dfy ===
/**
 The filter panel: single-field edits, `Clear All`, the distance select
 (its displayed value and the number it sends back) and the type select's
 options.
 */
module Filters {
  import opened Wrappers
  import opened Text
  import opened Types
  import opened BrewerySlice
  import App

  /** The filter fields a control can edit. */
  datatype FilterKey = SearchKey | CityKey | StateKey | TypeKey

  /** `handleFilterChange(key, value)` for a text field: a patch naming only that field. */
  function TextEdit(key: FilterKey, value: string): (p: FilterPatch)
    ensures p.distance.None?
    ensures key == SearchKey <==> p.search == Some(value)
    ensures key == CityKey <==> p.city == Some(value)
    ensures key == StateKey <==> p.state == Some(value)
    ensures key == TypeKey <==> p.breweryType == Some(value)
    ensures key != SearchKey ==> p.search.None?
    ensures key != CityKey ==> p.city.None?
    ensures key != StateKey ==> p.state.None?
    ensures key != TypeKey ==> p.breweryType.None?
  {
    match key
    case SearchKey => EmptyPatch.(search := Some(value))
    case CityKey => EmptyPatch.(city := Some(value))
    case StateKey => EmptyPatch.(state := Some(value))
    case TypeKey => EmptyPatch.(breweryType := Some(value))
  }

  /** `handleFilterChange('distance', value)`: the distance changes, nothing else does. */
  function DistanceEdit(d: Option<int>): (p: FilterPatch)
    ensures forall f :: Merge(f, p) == f.(distance := d)
  {
    EmptyPatch.(distance := Some(d))
  }

  /** An edit changes its own field, and nothing else in the filter set. */
  lemma EditChangesOneField(f: BreweryFilters, key: FilterKey, value: string, d: Option<int>)
    ensures Merge(f, TextEdit(key, value)) ==
      match key
      case SearchKey => f.(search := value)
      case CityKey => f.(city := value)
      case StateKey => f.(state := value)
      case TypeKey => f.(breweryType := value)
    ensures Merge(f, DistanceEdit(d)) == f.(distance := d)
  {
  }

  /** `Clear All`: every field named, with its initial value. */
  const ClearAllPatch := FilterPatch(Some(""), Some(""), Some(""), Some(None), Some(""))

  /**
   `Clear All` restores the initial filters from any filter set, back on
   page one, after which no filter is set and the plain listing is requested.
   */
  lemma ClearAllRestoresInitial(s: State)
    ensures Reduce(s, SetFilters(ClearAllPatch)).filters == InitialFilters
    ensures Reduce(s, SetFilters(ClearAllPatch)).currentPage == 1
    ensures !App.HasFilters(InitialFilters)
    ensures App.ListEffect(InitialFilters) == App.ListRequest(BreweryRequests.NoParams)
  {
  }

  /** The `Clear All` button is shown exactly when the app would use the filtered request. */
  function ShowClearAll(f: BreweryFilters): (show: bool)
    ensures show <==> App.ListEffect(f).FilteredRequest?
    ensures !show <==> f.search == "" && f.city == "" && f.state == "" && f.breweryType == ""
                       && (f.distance.None? || f.distance == Some(0))
  {
    App.HasFilters(f)
  }

  // ---- the distance select ----

  /** The select's options: any distance, then 25, 50 and 100 miles. */
  const DistanceOptions: seq<Option<int>> := [None, Some(25), Some(50), Some(100)]

  /** `filters.distance || ''`: the value the select shows. */
  function SelectValue(d: Option<int>): (v: string)
    ensures v == "" <==> !TruthyInt(d)
    ensures TruthyInt(d) ==> v == IntToDecimal(d.value)
  {
    if TruthyInt(d) then IntToDecimal(d.value) else ""
  }

  /** A value the select can report: empty, or a decimal number. */
  predicate SelectText(v: string) {
    v == "" || IsDecimal(v)
  }

  /** `e.target.value ? Number(e.target.value) : null`. */
  function DistanceFromSelect(v: string): (d: Option<int>)
    requires SelectText(v)
    ensures d.None? <==> v == ""
    ensures d.Some? ==> d.value >= 0
  {
    if v == "" then None else Some(DecimalValue(v))
  }

  /**
   Choosing an option and reading the select back gives the option again:
   each option's value text turns into that option's distance, and shows as
   the same text.
   */
  lemma {:induction false} DistanceSelectRoundTrip(i: nat)
    requires i < |DistanceOptions|
    ensures SelectText(SelectValue(DistanceOptions[i]))
    ensures DistanceFromSelect(SelectValue(DistanceOptions[i])) == DistanceOptions[i]
    ensures SelectValue(DistanceFromSelect(SelectValue(DistanceOptions[i]))) == SelectValue(DistanceOptions[i])
  {
    var o := DistanceOptions[i];
    if o.Some? {
      DecimalRoundTrip(o.value);
    }
  }

  /** Every option other than "any" is a truthy distance. */
  lemma OptionsAreTruthy(i: nat)
    requires 0 < i < |DistanceOptions|
    ensures TruthyInt(DistanceOptions[i])
  {
  }

  /** The select is disabled, and the hint shown, exactly when there is no location. */
  function DistanceDisabled(loc: Option<UserLocation>): (disabled: bool)
    ensures disabled <==> loc.None?
  {
    loc.None?
  }

  // ---- the type select ----

  /** The type select's option values, `''` meaning all types. */
  const TypeOptions: seq<string> :=
    ["", "micro", "nano", "regional", "brewpub", "large", "planning", "bar", "contract", "proprietor", "closed"]

  /** Choosing a type option sets exactly that type, and only "All Types" leaves the type unset. */
  lemma TypeOptionSets(f: BreweryFilters, i: nat)
    requires i < |TypeOptions|
    ensures Merge(f, TextEdit(TypeKey, TypeOptions[i])).breweryType == TypeOptions[i]
    ensures Truthy(TypeOptions[i]) <==> i != 0
  {
  }
}

=== FILE: pagination.dfy ===
/**
 The pager: hidden for a single page; otherwise Previous, the first page,
 a window of two pages either side of the current one, the last page,
 `...` wherever pages are skipped, and Next.
 */
module Pagination {
  import opened Wrappers
  import opened BrewerySlice

  /** One entry of the page row: a page button or a `...` marker. */
  datatype PageItem = PageNumber(n: int) | Dots

  /** Pages either side of the current one. */
  const Delta := 2

  /** The pager renders nothing for one page or none. */
  predicate Hidden(totalPages: int) {
    totalPages <= 1
  }

  /**
   Over a reachable state, the pager hides exactly when every record fits
   on one page of twelve; in particular it hides over an empty list.
   */
  lemma PagerHiddenExactlyForOnePage(s: State)
    requires Inv(s)
    ensures Hidden(s.totalPages) <==> |s.filteredBreweries| <= ItemsPerPage
    ensures s.filteredBreweries == [] ==> Hidden(s.totalPages)
  {
  }

  /** An empty listing leaves zero pages, so the pager renders nothing. */
  lemma EmptyListingHidesPager(s: State, filtered: bool)
    ensures Reduce(s, ListFulfilled(filtered, [])).totalPages == 0
    ensures Hidden(Reduce(s, ListFulfilled(filtered, [])).totalPages)
  {
  }

  function Max(a: int, b: int): int {
    if a >= b then a else b
  }

  function Min(a: int, b: int): int {
    if a <= b then a else b
  }

  /** The consecutive page numbers `lo..hi`, empty when `lo > hi`. */
  function Window(lo: int, hi: int): (w: seq<int>)
    ensures |w| == Max(0, hi - lo + 1)
    ensures forall k :: 0 <= k < |w| ==> w[k] == lo + k
    decreases hi - lo + 1
  {
    if lo > hi then [] else [lo] + Window(lo + 1, hi)
  }

  /** Page buttons for a list of page numbers. */
  function Buttons(ns: seq<int>): (items: seq<PageItem>)
    ensures |items| == |ns|
    ensures forall k :: 0 <= k < |ns| ==> items[k] == PageNumber(ns[k])
  {
    if ns == [] then [] else [PageNumber(ns[0])] + Buttons(ns[1..])
  }

  function WindowLo(c: int): int {
    Max(2, c - Delta)
  }

  function WindowHi(c: int, t: int): int {
    Min(t - 1, c + Delta)
  }

  predicate LeadingDots(c: int) {
    c - Delta > 2
  }

  predicate TrailingDots(c: int, t: int) {
    c + Delta < t - 1
  }

  /** The row `getVisiblePages` builds, as a definition. */
  function VisibleItems(c: int, t: int): seq<PageItem>
    requires t >= 2
  {
    (if LeadingDots(c) then [PageNumber(1), Dots] else [PageNumber(1)])
    + Buttons(Window(WindowLo(c), WindowHi(c, t)))
    + (if TrailingDots(c, t) then [Dots, PageNumber(t)] else [PageNumber(t)])
  }

  /** `getVisiblePages`, with its loop over the window. */
  method VisiblePages(c: int, t: int) returns (items: seq<PageItem>)
    requires t >= 2
    ensures items == VisibleItems(c, t)
  {
    var lo, hi := Max(2, c - Delta), Min(t - 1, c + Delta);
    var range: seq<int> := [];
    var i := lo;
    while i <= hi
      invariant lo <= i <= Max(lo, hi + 1)
      invariant range == Window(lo, i - 1)
      decreases hi - i
    {
      WindowSnoc(lo, i);
      range := range + [i];
      i := i + 1;
    }
    assert range == Window(WindowLo(c), WindowHi(c, t));
    items := if c - Delta > 2 then [PageNumber(1), Dots] else [PageNumber(1)];
    items := items + Buttons(range);
    if c + Delta < t - 1 {
      items := items + [Dots, PageNumber(t)];
    } else {
      items := items + [PageNumber(t)];
    }
  }

  /** Extending a window by its next page. */
  lemma WindowSnoc(lo: int, i: int)
    requires lo <= i
    ensures Window(lo, i) == Window(lo, i - 1) + [i]
  {
    var w, v := Window(lo, i), Window(lo, i - 1) + [i];
    assert |w| == |v|;
    assert forall k :: 0 <= k < |w| ==> w[k] == v[k];
  }

  /**
   The row's shape: page 1 first and the last page last, `...` right after
   the first page exactly when pages before the window are skipped and right
   before the last page exactly when pages after it are, and never more than
   nine entries.
   */
  lemma VisibleShape(c: int, t: int)
    requires t >= 2
    ensures var items := VisibleItems(c, t);
      |items| >= 2 && |items| <= 9
      && items[0] == PageNumber(1) && items[|items| - 1] == PageNumber(t)
    ensures 1 <= c <= t ==>
      var items := VisibleItems(c, t);
      (items[1] == Dots <==> LeadingDots(c)) && (items[|items| - 2] == Dots <==> TrailingDots(c, t))
  {
    var head := if LeadingDots(c) then [PageNumber(1), Dots] else [PageNumber(1)];
    var mid := Buttons(Window(WindowLo(c), WindowHi(c, t)));
    var tail := if TrailingDots(c, t) then [Dots, PageNumber(t)] else [PageNumber(t)];
    var items := head + mid + tail;
    assert items == VisibleItems(c, t);
    assert |mid| <= 5;
    if 1 <= c <= t {
      if |mid| == 0 {
        assert !LeadingDots(c) && !TrailingDots(c, t);
      } else {
        assert items[1] == (if |head| == 2 then Dots else mid[0]);
        assert items[|items| - 2] == (if |tail| == 2 then Dots else mid[|mid| - 1]);
      }
    }
  }

  /**
   A `...` marker never ends the row and always stands between two page
   buttons with at least one page skipped between them.
   */
  lemma DotsSeparateDistantPages(c: int, t: int, k: int)
    requires t >= 2 && 1 <= c <= t
    requires 0 <= k < |VisibleItems(c, t)| && VisibleItems(c, t)[k] == Dots
    ensures 0 < k < |VisibleItems(c, t)| - 1
    ensures VisibleItems(c, t)[k - 1].PageNumber? && VisibleItems(c, t)[k + 1].PageNumber?
    ensures VisibleItems(c, t)[k + 1].n - VisibleItems(c, t)[k - 1].n >= 2
  {
    var w := Window(WindowLo(c), WindowHi(c, t));
    var head := if LeadingDots(c) then [PageNumber(1), Dots] else [PageNumber(1)];
    var mid := Buttons(w);
    var tail := if TrailingDots(c, t) then [Dots, PageNumber(t)] else [PageNumber(t)];
    var items := head + mid + tail;
    assert items == VisibleItems(c, t);
    assert items[0] == PageNumber(1) && items[|items| - 1] == PageNumber(t);
    assert forall j :: |head| <= j < |head| + |mid| ==> items[j] == mid[j - |head|];
    if LeadingDots(c) && k == 1 {
      assert |w| > 0;
      assert items[2] == mid[0] == PageNumber(WindowLo(c));
    } else if TrailingDots(c, t) && k == |head| + |mid| {
      assert |w| > 0;
      assert items[k - 1] == mid[|mid| - 1] == PageNumber(WindowHi(c, t));
      assert items[k + 1] == PageNumber(t);
    }
  }

  /**
   Which pages get a button: the first, the last, and those of the window
   of two either side of the current page.
   */
  lemma VisibleMembership(c: int, t: int, p: int)
    requires t >= 2 && 1 <= p <= t
    ensures PageNumber(p) in VisibleItems(c, t) <==> p == 1 || p == t || c - Delta <= p <= c + Delta
  {
    var head := if LeadingDots(c) then [PageNumber(1), Dots] else [PageNumber(1)];
    var mid := Buttons(Window(WindowLo(c), WindowHi(c, t)));
    var tail := if TrailingDots(c, t) then [Dots, PageNumber(t)] else [PageNumber(t)];
    assert VisibleItems(c, t) == head + mid + tail;
    if 1 < p < t && c - Delta <= p <= c + Delta {
      assert mid[p - WindowLo(c)] == PageNumber(p);
    }
  }

  /** A page within range is always shown as a button. */
  lemma CurrentPageShown(c: int, t: int)
    requires 1 <= c <= t && t >= 2
    ensures PageNumber(c) in VisibleItems(c, t)
  {
    VisibleMembership(c, t, c);
  }

  /** The page numbers of the row, in order. */
  function NumbersOf(items: seq<PageItem>): (ns: seq<int>)
    ensures |ns| <= |items|
  {
    if items == [] then []
    else (if items[0].PageNumber? then [items[0].n] else []) + NumbersOf(items[1..])
  }

  /** The row's page numbers: 1, the window, and the last page. */
  lemma VisibleNumbers(c: int, t: int)
    requires t >= 2
    ensures NumbersOf(VisibleItems(c, t)) == [1] + Window(WindowLo(c), WindowHi(c, t)) + [t]
  {
    var w := Window(WindowLo(c), WindowHi(c, t));
    var head := if LeadingDots(c) then [PageNumber(1), Dots] else [PageNumber(1)];
    var tail := if TrailingDots(c, t) then [Dots, PageNumber(t)] else [PageNumber(t)];
    NumbersOfAppend(head, Buttons(w));
    NumbersOfAppend(head + Buttons(w), tail);
    NumbersOfButtons(w);
    assert NumbersOf(head) == [1] by {
      assert head[1..] == [] || head[1..] == [Dots];
      assert NumbersOf([Dots]) == [];
    }
    assert NumbersOf(tail) == [t] by {
      assert tail == [PageNumber(t)] || tail == [Dots] + [PageNumber(t)];
      NumbersOfAppend([Dots], [PageNumber(t)]);
      assert NumbersOf([PageNumber(t)]) == [t];
    }
  }

  /** The row's page buttons run in strictly increasing order. */
  lemma VisibleIncreasing(c: int, t: int)
    requires t >= 2
    ensures var ns := NumbersOf(VisibleItems(c, t));
      forall i, j :: 0 <= i < j < |ns| ==> ns[i] < ns[j]
  {
    VisibleNumbers(c, t);
    FramedWindowIncreasing(WindowLo(c), WindowHi(c, t), t);
  }

  /** A window strictly inside `1..t`, framed by 1 and `t`, is strictly increasing. */
  lemma FramedWindowIncreasing(lo: int, hi: int, t: int)
    requires 2 <= lo && hi <= t - 1 && t >= 2
    ensures var ns := [1] + Window(lo, hi) + [t];
      forall i, j :: 0 <= i < j < |ns| ==> ns[i] < ns[j]
  {
    var w := Window(lo, hi);
    var ns := [1] + w + [t];
    assert forall k :: 0 < k < |ns| - 1 ==> ns[k] == w[k - 1] == lo + k - 1;
    assert ns[0] == 1 && ns[|ns| - 1] == t;
    forall i, j | 0 <= i < j < |ns| ensures ns[i] < ns[j] {
    }
  }

  lemma {:induction false} NumbersOfAppend(a: seq<PageItem>, b: seq<PageItem>)
    ensures NumbersOf(a + b) == NumbersOf(a) + NumbersOf(b)
  {
    if a != [] {
      assert (a + b)[1..] == a[1..] + b;
      NumbersOfAppend(a[1..], b);
    } else {
      assert a + b == b;
    }
  }

  lemma {:induction false} NumbersOfButtons(ns: seq<int>)
    ensures NumbersOf(Buttons(ns)) == ns
  {
    if ns != [] {
      assert Buttons(ns)[1..] == Buttons(ns[1..]);
      NumbersOfButtons(ns[1..]);
    }
  }

  // ---- navigation ----

  /** `Previous`: disabled on page 1, otherwise goes one page back. */
  function Previous(c: int): (target: Option<int>)
    ensures target.None? <==> c == 1
    ensures target.Some? ==> target.value + 1 == c
  {
    if c == 1 then None else Some(c - 1)
  }

  /** `Next`: disabled on the last page, otherwise goes one page on. */
  function Next(c: int, t: int): (target: Option<int>)
    ensures target.None? <==> c == t
    ensures target.Some? ==> target.value == c + 1
  {
    if c == t then None else Some(c + 1)
  }

  /**
   From a page within range, Previous, Next and every page button lead to a
   page within range, and the store's current page follows.
   */
  lemma NavigationStaysInRange(s: State, c: int, t: int, p: int)
    requires t >= 2 && 1 <= c <= t
    requires PageNumber(p) in VisibleItems(c, t)
    ensures Previous(c).Some? ==> 1 <= Previous(c).value <= t
    ensures Next(c, t).Some? ==> 1 <= Next(c, t).value <= t
    ensures 1 <= p <= t
    ensures Reduce(s, SetCurrentPage(p)).currentPage == p
  {
    var head := if LeadingDots(c) then [PageNumber(1), Dots] else [PageNumber(1)];
    var w := Window(WindowLo(c), WindowHi(c, t));
    var tail := if TrailingDots(c, t) then [Dots, PageNumber(t)] else [PageNumber(t)];
    assert VisibleItems(c, t) == head + Buttons(w) + tail;
    if PageNumber(p) in Buttons(w) {
      var k :| 0 <= k < |w| && Buttons(w)[k] == PageNumber(p);
    }
  }
}

=== FILE: random_brewery.dfy ===
/**
 The random-discovery panel: nothing without a pick; otherwise the pick's
 name, badge, address, contact links, and a directions button that opens
 the map at its coordinates, with no address fallback.
 */
module RandomBrewery {
  import opened Wrappers
  import opened Types
  import opened BreweryRequests
  import opened BrewerySlice
  import opened BreweryCard
  import opened BreweryModal

  /** What the panel shows for a pick; an absent line is `None`. */
  datatype PanelView = PanelView(
    name: string,
    badgeText: string,
    address: Option<(string, string)>,
    phoneLink: Option<string>,
    website: Option<string>,
    directions: bool)

  /** The directions target: the pick's coordinates, or nothing. */
  function DirectionsUrl(b: Brewery): (url: Option<string>)
    ensures url.Some? <==> HasCoordinates(b)
    ensures url.Some? ==> IsCoordinatesUrl(url.value)
  {
    if HasCoordinates(b) then
      var u := CoordinatesUrl(b);
      assert u[..|MapsEndpoint| + 3] == MapsEndpoint + "?q=";
      Some(u)
    else None
  }

  /** The panel for the store's pick: nothing at all without one. */
  function Panel(pick: Option<Brewery>): (v: Option<PanelView>)
    ensures v.None? <==> pick.None?
    ensures v.Some? ==> v.value.name == pick.value.name && v.value.badgeText == FormatBreweryType(pick.value.breweryType)
    ensures v.Some? ==> (v.value.address.Some? <==> Truthy(pick.value.address1))
    ensures v.Some? ==> (v.value.phoneLink.Some? <==> TruthyText(pick.value.phone))
    ensures v.Some? ==> (v.value.website.Some? <==> TruthyText(pick.value.websiteUrl))
    ensures v.Some? ==> (v.value.directions <==> HasCoordinates(pick.value))
  {
    match pick
    case None => None
    case Some(b) =>
      Some(PanelView(
        b.name,
        FormatBreweryType(b.breweryType),
        if Truthy(b.address1) then Some((b.address1, b.city + ", " + b.state + " " + b.postalCode)) else None,
        if TruthyText(b.phone) then Some("tel:" + b.phone.value) else None,
        if TruthyText(b.websiteUrl) then b.websiteUrl else None,
        DirectionsUrl(b).Some?))
  }

  /**
   The panel's directions agree with the modal's `Open in Maps` wherever
   the panel offers them, and the two differ exactly for a record with a
   street address but no coordinates, where only the modal opens a search.
   */
  lemma DirectionsAgreeWithModal(b: Brewery)
    ensures DirectionsUrl(b).Some? ==> DirectionsUrl(b) == OpenInMaps(b)
    ensures DirectionsUrl(b) != OpenInMaps(b) <==> !HasCoordinates(b) && Truthy(b.address1)
  {
  }

  /**
   A random fetch with no candidates leaves the panel empty rather than
   showing an error; a fetch with candidates shows one of them, a nearby
   one when any candidate is nearby.
   */
  lemma RandomFetchToPanel(s: State, loc: UserLocation, plat: Platform, r: real, cands: seq<Brewery>)
    requires 0.0 <= r < 1.0
    ensures var o := RunFetchRandom(loc, plat, r, Ok(cands));
      var s' := ReduceAll(s, [Pending(RandomFetch), RandomFulfilled(o.payload)]);
      o.Fulfilled? && s'.error == s.error
      && (Panel(s'.randomBrewery).None? <==> cands == [])
      && (s'.randomBrewery.Some? ==> s'.randomBrewery.value in cands)
      && ((exists b :: b in cands && Nearby(plat, loc, b)) ==> Nearby(plat, loc, s'.randomBrewery.value))
  {
    var o := RunFetchRandom(loc, plat, r, Ok(cands));
    RandomLifecycle(s, o);
  }
}

=== FILE: search_bar.dfy ===
/**
 The search box: its local state (the text typed and whether the
 suggestion list is open), what each user event does to it and dispatches,
 and the debounced suggestion request.
 */
module SearchBar {
  import opened Wrappers
  import opened Text
  import opened Types
  import opened BreweryRequests
  import opened BrewerySlice
  import opened App

  /** The component's own state. */
  datatype Ui = Ui(inputValue: string, showSuggestions: bool)

  /** The events the component handles. */
  datatype Event =
    | Input(value: string)
    | Focus
    | SuggestionClick(suggestion: string)
    | Submit
    | Clear
    | MouseDownOutside

  /** The state on mount: the store's search text, list closed. */
  function Mount(f: BreweryFilters): (ui: Ui)
    ensures ui.inputValue == f.search && !ui.showSuggestions
  {
    Ui(f.search, false)
  }

  /**
   `value.length >= 2`, with JavaScript's UTF-16 length: two characters, or
   one character outside the Basic Multilingual Plane.
   */
  function LongEnough(q: string): (b: bool)
    ensures b <==> |q| >= 2 || (|q| == 1 && q[0] as int >= 0x1_0000)
  {
    Utf16Length(q) >= 2
  }

  /** A patch naming only the search text. */
  function SearchPatch(q: string): FilterPatch {
    EmptyPatch.(search := Some(q))
  }

  /** One event: the new state and what is dispatched, in order. */
  function Handle(ui: Ui, e: Event): (r: (Ui, seq<Dispatch>))
    ensures e.Input? ==> r.0 == Ui(e.value, LongEnough(e.value)) && r.1 == []
    ensures e.Focus? ==> r.0 == ui.(showSuggestions := LongEnough(ui.inputValue)) && r.1 == []
    ensures e.SuggestionClick? ==>
      r.0 == Ui(e.suggestion, false) && r.1 == [Store(SetFilters(SearchPatch(e.suggestion)))]
    ensures e.Submit? ==> r.0 == ui.(showSuggestions := false) && r.1 == [Store(SetFilters(SearchPatch(ui.inputValue)))]
    ensures e.Clear? ==>
      r.0 == ui.(inputValue := "") && r.1 == [Store(SetFilters(SearchPatch(""))), Store(ClearSuggestions)]
    ensures e.MouseDownOutside? ==> r.0 == ui.(showSuggestions := false) && r.1 == []
  {
    match e
    case Input(v) => (Ui(v, LongEnough(v)), [])
    case Focus => (ui.(showSuggestions := LongEnough(ui.inputValue)), [])
    case SuggestionClick(sug) => (Ui(sug, false), [Store(SetFilters(SearchPatch(sug)))])
    case Submit => (ui.(showSuggestions := false), [Store(SetFilters(SearchPatch(ui.inputValue)))])
    case Clear => (ui.(inputValue := ""), [Store(SetFilters(SearchPatch(""))), Store(ClearSuggestions)])
    case MouseDownOutside => (ui.(showSuggestions := false), [])
  }

  /**
   The list is only ever open over a query of two or more units, or over an
   empty box (`Clear` empties the box but leaves the flag alone).
   */
  predicate UiInv(ui: Ui) {
    ui.showSuggestions ==> LongEnough(ui.inputValue) || ui.inputValue == ""
  }

  lemma HandlePreservesUiInv(ui: Ui, e: Event)
    requires UiInv(ui)
    ensures UiInv(Handle(ui, e).0)
  {
  }

  /** Every state reachable from mount by events satisfies `UiInv`. */
  function HandleAll(ui: Ui, es: seq<Event>): (r: Ui)
    requires UiInv(ui)
    ensures UiInv(r)
    decreases |es|
  {
    if es == [] then ui
    else
      HandlePreservesUiInv(ui, es[0]);
      HandleAll(Handle(ui, es[0]).0, es[1..])
  }

  /** The dropdown: shown when the flag is set and the store holds suggestions. */
  function DropdownVisible(ui: Ui, suggestions: seq<string>): (visible: bool)
    ensures visible ==> ui.showSuggestions && |suggestions| > 0
    ensures ui.showSuggestions && suggestions != [] ==> visible
  {
    ui.showSuggestions && |suggestions| > 0
  }

  /** The clear button is shown while the box holds text. */
  function ClearButtonVisible(ui: Ui): (visible: bool)
    ensures visible <==> ui.inputValue != ""
  {
    Truthy(ui.inputValue)
  }

  /**
   What the debounced callback dispatches once typing has paused: the
   suggestions request for a long-enough query, else `clearSuggestions`.
   */
  function DebouncedEffect(q: string): (d: Dispatch)
    ensures d.SuggestionsRequest? <==> LongEnough(q)
    ensures d.SuggestionsRequest? ==> d.query == q
    ensures !d.SuggestionsRequest? ==> d == Store(ClearSuggestions)
  {
    if LongEnough(q) then SuggestionsRequest(q) else Store(ClearSuggestions)
  }

  /**
   The request the search box sends never takes the thunk's own
   short-query exit: it always reaches the network, and its outcome is the
   response's names or the fixed failure message.
   */
  lemma DebouncedRequestReachesNetwork(q: string, resp: Http<seq<Brewery>>)
    requires DebouncedEffect(q).SuggestionsRequest?
    ensures RunFetchSuggestions(q, resp).Fulfilled? <==> resp.Ok?
    ensures resp.Ok? ==> RunFetchSuggestions(q, resp) == Fulfilled(Names(resp.body))
  {
  }

  /**
   `Clear` closes the dropdown in effect: the store's suggestions are emptied,
   so nothing is shown whatever the flag says, and the search filter is off.
   */
  lemma ClearHidesDropdown(ui: Ui, s: State)
    ensures var (ui', ds) := Handle(ui, Clear);
      |ds| == 2 && ds[0].Store? && ds[1].Store?
      && var s' := Reduce(Reduce(s, ds[0].action), ds[1].action);
      !DropdownVisible(ui', s'.suggestions) && s'.filters.search == "" && s'.currentPage == 1
  {
  }

  /**
   Picking a suggestion puts it in the box and in the store's search
   filter, back on page one, and closes the list.
   */
  lemma SuggestionClickSetsSearch(ui: Ui, s: State, sug: string)
    ensures var (ui', ds) := Handle(ui, SuggestionClick(sug));
      |ds| == 1 && ds[0].Store?
      && var s' := Reduce(s, ds[0].action);
      ui'.inputValue == sug && s'.filters.search == sug && s'.currentPage == 1
      && s'.filters == s.filters.(search := sug) && !DropdownVisible(ui', s'.suggestions)
  {
  }
}

=== FILE: text.dfy ===
/**
 String helpers used by the model: decimal rendering and parsing of
 integers (JavaScript's `String(n)` and `Number(s)` on digit strings),
 the UTF-16 length JavaScript reports for a string, ASCII upper-casing
 and `String.prototype.replace` with a single-character pattern.
 */
module Text {

  predicate IsDigit(c: char) {
    '0' <= c <= '9'
  }

  predicate IsDecimal(s: string) {
    |s| > 0 && forall i :: 0 <= i < |s| ==> IsDigit(s[i])
  }

  function DigitChar(d: nat): (c: char)
    requires d < 10
    ensures IsDigit(c)
    ensures c as int - '0' as int == d
  {
    ('0' as int + d) as char
  }

  function DigitValue(c: char): (d: nat)
    requires IsDigit(c)
    ensures d < 10
    ensures DigitChar(d) == c
  {
    c as int - '0' as int
  }

  /** `String(n)` for a natural number: its decimal digits, no leading zeros. */
  function NatToDecimal(n: nat): (s: string)
    ensures IsDecimal(s)
    ensures |s| > 1 ==> s[0] != '0'
    ensures n < 10 <==> |s| == 1
  {
    if n < 10 then [DigitChar(n)]
    else
      var prefix := NatToDecimal(n / 10);
      prefix + [DigitChar(n % 10)]
  }

  /** `String(n)` for an integer: a minus sign before the digits of a negative number. */
  function IntToDecimal(n: int): (s: string)
    ensures |s| > 0
    ensures n >= 0 <==> IsDecimal(s)
    ensures n < 0 <==> s[0] == '-'
    ensures forall i :: 0 <= i < |s| ==> IsDigit(s[i]) || s[i] == '-'
  {
    if n < 0 then
      var s := "-" + NatToDecimal(-n);
      assert !IsDigit(s[0]);
      s
    else NatToDecimal(n)
  }

  /** `Number(s)` on a non-empty string of decimal digits. */
  function DecimalValue(s: string): (n: nat)
    requires IsDecimal(s)
    ensures n < Pow10(|s|)
  {
    if |s| == 1 then DigitValue(s[0])
    else DecimalValue(s[..|s| - 1]) * 10 + DigitValue(s[|s| - 1])
  }

  function Pow10(k: nat): (p: nat)
    ensures p >= 1
  {
    if k == 0 then 1 else 10 * Pow10(k - 1)
  }

  /** Reading back the decimal rendering of a natural number gives that number. */
  lemma {:induction false} DecimalRoundTrip(n: nat)
    ensures DecimalValue(NatToDecimal(n)) == n
  {
    if n >= 10 {
      var prefix := NatToDecimal(n / 10);
      var s := prefix + [DigitChar(n % 10)];
      assert s[..|s| - 1] == prefix;
      DecimalRoundTrip(n / 10);
    }
  }

  /** Rendering is injective: distinct numbers never share a decimal string. */
  lemma DecimalInjective(m: nat, n: nat)
    requires NatToDecimal(m) == NatToDecimal(n)
    ensures m == n
  {
    DecimalRoundTrip(m);
    DecimalRoundTrip(n);
  }

  /**
   The `length` JavaScript reports for a string: its count of UTF-16 code
   units, so a character outside the Basic Multilingual Plane counts twice.
   */
  function Utf16Length(s: string): (n: nat)
    ensures |s| <= n <= 2 * |s|
    ensures (forall i :: 0 <= i < |s| ==> s[i] as int < 0x1_0000) ==> n == |s|
  {
    if s == [] then 0
    else (if s[0] as int < 0x1_0000 then 1 else 2) + Utf16Length(s[1..])
  }

  /** `toUpperCase` on one character, restricted to the ASCII letters. */
  function UpperAscii(c: char): (u: char)
    ensures 'a' <= c <= 'z' ==> 'A' <= u <= 'Z' && u as int + 32 == c as int
    ensures !('a' <= c <= 'z') ==> u == c
  {
    if 'a' <= c <= 'z' then (c as int - 32) as char else c
  }

  /** `toLowerCase` on one character, restricted to the ASCII letters. */
  function LowerAscii(c: char): (l: char)
    ensures 'A' <= c <= 'Z' ==> 'a' <= l <= 'z' && l as int == c as int + 32
    ensures !('A' <= c <= 'Z') ==> l == c
  {
    if 'A' <= c <= 'Z' then (c as int + 32) as char else c
  }

  /** Lower-casing undoes upper-casing on every character that is not already an upper-case ASCII letter. */
  lemma LowerUpper(c: char)
    requires !('A' <= c <= 'Z')
    ensures LowerAscii(UpperAscii(c)) == c
  {
  }

  /** Index of the first occurrence of `c` in `s`, or `|s|` when there is none. */
  function FirstIndexOf(s: string, c: char): (i: nat)
    ensures i <= |s|
    ensures i < |s| ==> s[i] == c
    ensures forall j :: 0 <= j < i ==> s[j] != c
  {
    if s == [] then 0
    else if s[0] == c then 0
    else 1 + FirstIndexOf(s[1..], c)
  }

  /**
   `s.replace(from, to)` with a one-character string pattern: only the
   first occurrence is replaced.
   */
  function ReplaceFirst(s: string, from: char, to: char): (r: string)
    ensures |r| == |s|
    ensures var i := FirstIndexOf(s, from);
      forall j :: 0 <= j < |s| ==> r[j] == (if j == i then to else s[j])
  {
    if s == [] then []
    else if s[0] == from then [to] + s[1..]
    else [s[0]] + ReplaceFirst(s[1..], from, to)
  }

  /**
   Replacing the first `from` by `to`, then the first `to` by `from`, gives
   the string back when `to` did not occur in it.
   */
  lemma ReplaceFirstBack(s: string, from: char, to: char)
    requires to !in s && from != to
    ensures ReplaceFirst(ReplaceFirst(s, from, to), to, from) == s
  {
    var i := FirstIndexOf(s, from);
    var r := ReplaceFirst(s, from, to);
    var k := FirstIndexOf(r, to);
    forall j | 0 <= j < |r| && j != i
      ensures r[j] != to
    {
      assert r[j] == s[j] && s[j] in s;
    }
    assert k == i;
    var b := ReplaceFirst(r, to, from);
    assert forall j :: 0 <= j < |s| ==> b[j] == s[j];
  }
}

=== FILE: types.dfy ===
/**
 The records of src/types/brewery.ts, the JavaScript truthiness tests the
 components apply to their fields, and the platform functions the model
 takes as parameters (floating-point parsing, great-circle distance and
 number rendering).
 */
module Types {
  import opened Wrappers

  /**
   A directory record. Coordinates, phone, website and the extra address
   lines are optional strings: a record without coordinates is representable
   and common.
   */
  datatype Brewery = Brewery(
    id: string,
    name: string,
    breweryType: string,
    address1: string,
    address2: Option<string>,
    address3: Option<string>,
    city: string,
    stateProvince: string,
    postalCode: string,
    country: string,
    longitude: Option<string>,
    latitude: Option<string>,
    phone: Option<string>,
    websiteUrl: Option<string>,
    state: string,
    street: Option<string>)

  /** A record plus an optional computed distance, and nothing else. */
  datatype BreweryWithDistance = WithDistance(brewery: Brewery, distance: Option<real>)

  /** The filter set: four text fields and a distance that is a number or `null`. */
  datatype BreweryFilters = BreweryFilters(
    search: string,
    city: string,
    state: string,
    distance: Option<int>,
    breweryType: string)

  /** A user location: exactly a numeric latitude/longitude pair. */
  datatype UserLocation = UserLocation(latitude: real, longitude: real)

  /** The filter set the store starts from and `Clear All` restores. */
  const InitialFilters := BreweryFilters("", "", "", None, "")

  /** A record fetched as is, with no distance attached. */
  function Plain(b: Brewery): (w: BreweryWithDistance)
    ensures w.brewery == b && w.distance.None?
  {
    WithDistance(b, None)
  }

  // ---- JavaScript truthiness ----

  /** A string is truthy iff it is non-empty. */
  predicate Truthy(s: string) {
    s != ""
  }

  /** An optional string is truthy iff it is present and non-empty. */
  predicate TruthyText(o: Option<string>) {
    o.Some? && o.value != ""
  }

  /** An optional integer is truthy iff it is present and non-zero. */
  predicate TruthyInt(o: Option<int>) {
    o.Some? && o.value != 0
  }

  /** An optional number is truthy iff it is present and non-zero. */
  predicate TruthyReal(o: Option<real>) {
    o.Some? && o.value != 0.0
  }

  /** `brewery.latitude && brewery.longitude`. */
  predicate HasCoordinates(b: Brewery) {
    TruthyText(b.latitude) && TruthyText(b.longitude)
  }

  /**
   The platform functions the store relies on and the model does not
   interpret: `parseFloat`, `haversineDistance(lat1, lon1, lat2, lon2)` and
   the template-literal rendering of a number.
   */
  datatype Platform = Platform(
    parseFloat: string -> real,
    haversine: (real, real, real, real) -> real,
    numberText: real -> string)

  /** The haversine distance from `loc` to a record that has coordinates. */
  function DistanceTo(p: Platform, loc: UserLocation, b: Brewery): real
    requires HasCoordinates(b)
  {
    p.haversine(loc.latitude, loc.longitude, p.parseFloat(b.latitude.value), p.parseFloat(b.longitude.value))
  }
}

=== FILE: uri.dfy ===
/**
 URL text: `encodeURIComponent` (characters outside the unreserved set
 become `%XY` groups over their UTF-8 bytes) together with a decoder that
 inverts it, and query strings built as `key=value` pairs joined by `&`,
 together with a parser that reads them back.
 */
module Uri {
  import opened Wrappers
  import opened Text

  /** The characters `encodeURIComponent` leaves as they are. */
  predicate Unreserved(c: char) {
    || 'A' <= c <= 'Z' || 'a' <= c <= 'z' || '0' <= c <= '9'
    || c == '-' || c == '_' || c == '.' || c == '!' || c == '~'
    || c == '*' || c == '\'' || c == '(' || c == ')'
  }

  function HexDigit(d: nat): (c: char)
    requires d < 16
  {
    if d < 10 then DigitChar(d) else ('A' as int + (d - 10)) as char
  }

  predicate IsHex(c: char) {
    '0' <= c <= '9' || 'A' <= c <= 'F' || 'a' <= c <= 'f'
  }

  function HexValue(c: char): (d: nat)
    requires IsHex(c)
    ensures d < 16
  {
    if '0' <= c <= '9' then c as int - '0' as int
    else if 'A' <= c <= 'F' then c as int - 'A' as int + 10
    else c as int - 'a' as int + 10
  }

  lemma HexRoundTrip(d: nat)
    requires d < 16
    ensures IsHex(HexDigit(d)) && HexValue(HexDigit(d)) == d
  {
  }

  predicate IsByte(b: int) {
    0 <= b < 256
  }

  /** One byte as `%XY`, upper-case hexadecimal. */
  function PercentByte(b: int): (s: string)
    requires IsByte(b)
    ensures |s| == 3 && s[0] == '%'
  {
    ['%', HexDigit(b / 16), HexDigit(b % 16)]
  }

  function PercentBytes(bs: seq<int>): (s: string)
    requires forall i :: 0 <= i < |bs| ==> IsByte(bs[i])
    ensures |s| == 3 * |bs|
  {
    if bs == [] then "" else PercentByte(bs[0]) + PercentBytes(bs[1..])
  }

  /** The UTF-8 bytes of a Unicode scalar value. */
  function Utf8(c: char): (bs: seq<int>)
    ensures 1 <= |bs| <= 4
    ensures forall i :: 0 <= i < |bs| ==> IsByte(bs[i])
  {
    var cp := c as int;
    if cp < 0x80 then [cp]
    else if cp < 0x800 then [0xC0 + cp / 64, 0x80 + cp % 64]
    else if cp < 0x1_0000 then [0xE0 + cp / 64 / 64, 0x80 + cp / 64 % 64, 0x80 + cp % 64]
    else [0xF0 + cp / 64 / 64 / 64, 0x80 + cp / 64 / 64 % 64, 0x80 + cp / 64 % 64, 0x80 + cp % 64]
  }

  function EncodeChar(c: char): (s: string)
    ensures |s| > 0
  {
    if Unreserved(c) then [c] else PercentBytes(Utf8(c))
  }

  /** `encodeURIComponent`. */
  function EncodeComponent(s: string): (e: string)
    ensures |e| >= |s|
    ensures forall i :: 0 <= i < |e| ==> Unreserved(e[i]) || IsHex(e[i]) || e[i] == '%'
  {
    if s == [] then ""
    else
      var head := EncodeChar(s[0]);
      EncodedCharAlphabet(s[0]);
      head + EncodeComponent(s[1..])
  }

  lemma EncodedCharAlphabet(c: char)
    ensures forall i :: 0 <= i < |EncodeChar(c)| ==>
      Unreserved(EncodeChar(c)[i]) || IsHex(EncodeChar(c)[i]) || EncodeChar(c)[i] == '%'
  {
    if !Unreserved(c) {
      PercentAlphabet(Utf8(c));
    }
  }

  lemma {:induction false} PercentAlphabet(bs: seq<int>)
    requires forall i :: 0 <= i < |bs| ==> IsByte(bs[i])
    ensures forall i :: 0 <= i < |PercentBytes(bs)| ==> IsHex(PercentBytes(bs)[i]) || PercentBytes(bs)[i] == '%'
  {
    if bs != [] {
      PercentAlphabet(bs[1..]);
      HexRoundTrip(bs[0] / 16);
      HexRoundTrip(bs[0] % 16);
    }
  }

  /** Neither `&` nor `=` survives encoding, so an encoded value cannot split a query. */
  lemma EncodedHasNoDelimiters(s: string)
    ensures '&' !in EncodeComponent(s) && '=' !in EncodeComponent(s)
  {
  }

  // ---- decoding ----

  /** The byte written as the `k`-th `%XY` group of `s`, if that group is well formed. */
  function GroupAt(s: string, k: nat): Option<int> {
    if |s| >= 3 * k + 3 && s[3 * k] == '%' && IsHex(s[3 * k + 1]) && IsHex(s[3 * k + 2])
    then Some(16 * HexValue(s[3 * k + 1]) + HexValue(s[3 * k + 2]))
    else None
  }

  /** Number of bytes announced by a UTF-8 leading byte, or 0 if it is not one. */
  function Utf8Width(b0: int): nat {
    if 0 <= b0 < 0x80 then 1
    else if 0xC0 <= b0 < 0xE0 then 2
    else if 0xE0 <= b0 < 0xF0 then 3
    else if 0xF0 <= b0 < 0xF8 then 4
    else 0
  }

  predicate IsContinuation(g: Option<int>) {
    g.Some? && 0x80 <= g.value < 0xC0
  }

  predicate IsScalar(cp: int) {
    0 <= cp < 0xD800 || 0xE000 <= cp < 0x11_0000
  }

  /** The code point spelled by the first `%XY` groups of `s`, with the number of groups used. */
  function DecodeGroups(s: string): Option<(int, nat)> {
    var g0 := GroupAt(s, 0);
    if g0.None? then None
    else
      var b0 := g0.value;
      var w := Utf8Width(b0);
      if w == 1 then Some((b0, 1))
      else if w == 2 && IsContinuation(GroupAt(s, 1)) then
        Some(((b0 - 0xC0) * 64 + (GroupAt(s, 1).value - 0x80), 2))
      else if w == 3 && IsContinuation(GroupAt(s, 1)) && IsContinuation(GroupAt(s, 2)) then
        Some((((b0 - 0xE0) * 64 + (GroupAt(s, 1).value - 0x80)) * 64 + (GroupAt(s, 2).value - 0x80), 3))
      else if w == 4 && IsContinuation(GroupAt(s, 1)) && IsContinuation(GroupAt(s, 2))
           && IsContinuation(GroupAt(s, 3)) then
        Some(((((b0 - 0xF0) * 64 + (GroupAt(s, 1).value - 0x80)) * 64
                + (GroupAt(s, 2).value - 0x80)) * 64 + (GroupAt(s, 3).value - 0x80), 4))
      else None
  }

  /** `decodeURIComponent`: `None` for a malformed escape sequence. */
  function DecodeComponent(s: string): Option<string>
    decreases |s|
  {
    if s == [] then Some("")
    else if s[0] != '%' then
      match DecodeComponent(s[1..])
      case None => None
      case Some(rest) => Some([s[0]] + rest)
    else
      match DecodeGroups(s)
      case None => None
      case Some(d) =>
        var (cp, n) := d;
        if !IsScalar(cp) || |s| < 3 * n || n == 0 then None
        else
          match DecodeComponent(s[3 * n..])
          case None => None
          case Some(rest) => Some([cp as char] + rest)
  }

  lemma {:induction false} GroupsOfPercentBytes(bs: seq<int>, t: string, k: nat)
    requires forall i :: 0 <= i < |bs| ==> IsByte(bs[i])
    requires k < |bs|
    ensures GroupAt(PercentBytes(bs) + t, k) == Some(bs[k])
  {
    var u := PercentBytes(bs[1..]) + t;
    assert PercentBytes(bs) + t == PercentByte(bs[0]) + u;
    if k == 0 {
      FirstGroup(bs[0], u);
    } else {
      GroupsOfPercentBytes(bs[1..], t, k - 1);
      GroupShift(PercentByte(bs[0]), u, k);
    }
  }

  /** A `%XY` group in front reads back as its byte. */
  lemma FirstGroup(b: int, u: string)
    requires IsByte(b)
    ensures GroupAt(PercentByte(b) + u, 0) == Some(b)
  {
    HexRoundTrip(b / 16);
    HexRoundTrip(b % 16);
  }

  /** Behind a three-character prefix, group `k` is the rest's group `k - 1`. */
  lemma GroupShift(p: string, u: string, k: nat)
    requires |p| == 3 && k >= 1
    ensures GroupAt(p + u, k) == GroupAt(u, k - 1)
  {
    var s := p + u;
    if |s| >= 3 * k + 3 {
      assert s[3 * k] == u[3 * (k - 1)];
      assert s[3 * k + 1] == u[3 * (k - 1) + 1];
      assert s[3 * k + 2] == u[3 * (k - 1) + 2];
    }
  }

  lemma Utf8Decodes(c: char, t: string)
    ensures DecodeGroups(PercentBytes(Utf8(c)) + t) == Some((c as int, |Utf8(c)|))
  {
    var bs := Utf8(c);
    var s := PercentBytes(bs) + t;
    var cp := c as int;
    forall k | 0 <= k < |bs| ensures GroupAt(s, k) == Some(bs[k]) {
      GroupsOfPercentBytes(bs, t, k);
    }
    if cp < 0x80 {
      assert GroupAt(s, 0) == Some(cp);
    } else if cp < 0x800 {
      DecodeTwo(s, cp);
    } else if cp < 0x1_0000 {
      DecodeThree(s, cp);
    } else {
      DecodeFour(s, cp);
    }
  }

  /** Two groups spell a code point from `0x80` up to `0x800`. */
  lemma DecodeTwo(s: string, cp: int)
    requires 0x80 <= cp < 0x800
    requires GroupAt(s, 0) == Some(0xC0 + cp / 64) && GroupAt(s, 1) == Some(0x80 + cp % 64)
    ensures DecodeGroups(s) == Some((cp, 2))
  {
    assert 2 <= cp / 64 < 32;
  }

  /** Three groups spell a code point from `0x800` up to `0x10000`. */
  lemma DecodeThree(s: string, cp: int)
    requires 0x800 <= cp < 0x1_0000
    requires GroupAt(s, 0) == Some(0xE0 + cp / 64 / 64)
    requires GroupAt(s, 1) == Some(0x80 + cp / 64 % 64) && GroupAt(s, 2) == Some(0x80 + cp % 64)
    ensures DecodeGroups(s) == Some((cp, 3))
  {
    var q1, r1 := cp / 64, cp % 64;
    var q2, r2 := q1 / 64, q1 % 64;
    assert cp == q1 * 64 + r1;
    assert q1 == q2 * 64 + r2;
    assert q2 < 16;
  }

  /** Four groups spell a code point from `0x10000` on. */
  lemma DecodeFour(s: string, cp: int)
    requires 0x1_0000 <= cp < 0x11_0000
    requires GroupAt(s, 0) == Some(0xF0 + cp / 64 / 64 / 64)
    requires GroupAt(s, 1) == Some(0x80 + cp / 64 / 64 % 64)
    requires GroupAt(s, 2) == Some(0x80 + cp / 64 % 64) && GroupAt(s, 3) == Some(0x80 + cp % 64)
    ensures DecodeGroups(s) == Some((cp, 4))
  {
    var q1, r1 := cp / 64, cp % 64;
    var q2, r2 := q1 / 64, q1 % 64;
    var q3, r3 := q2 / 64, q2 % 64;
    assert cp == q1 * 64 + r1;
    assert q1 == q2 * 64 + r2;
    assert q2 == q3 * 64 + r3;
    assert q3 <= 4;
  }

  /** The character-level step of the round trip. */
  lemma DecodeEncodedChar(c: char, t: string)
    ensures DecodeComponent(EncodeChar(c) + t) ==
      (match DecodeComponent(t) case None => None case Some(rest) => Some([c] + rest))
  {
    var s := EncodeChar(c) + t;
    if Unreserved(c) {
      assert s[0] == c && s[1..] == t;
    } else {
      var bs := Utf8(c);
      Utf8Decodes(c, t);
      assert s[0] == '%' by { GroupsOfPercentBytes(bs, t, 0); }
      assert s[3 * |bs|..] == t;
    }
  }

  /** `decodeURIComponent(encodeURIComponent(s)) == s`: encoding loses nothing. */
  lemma {:induction false} DecodeEncode(s: string)
    ensures DecodeComponent(EncodeComponent(s)) == Some(s)
  {
    if s != [] {
      DecodeEncode(s[1..]);
      DecodeEncodedChar(s[0], EncodeComponent(s[1..]));
      assert [s[0]] + s[1..] == s;
    }
  }

  /** Encoding is injective: different search texts never produce the same query value. */
  lemma EncodeInjective(s: string, t: string)
    requires EncodeComponent(s) == EncodeComponent(t)
    ensures s == t
  {
    DecodeEncode(s);
    DecodeEncode(t);
  }

  // ---- query strings ----

  datatype Param = Param(key: string, value: string)

  function Join(parts: seq<string>, sep: char): string
  {
    if |parts| == 0 then ""
    else if |parts| == 1 then parts[0]
    else parts[0] + [sep] + Join(parts[1..], sep)
  }

  function Split(s: string, sep: char): (parts: seq<string>)
    ensures |parts| > 0
    decreases |s|
  {
    var i := FirstIndexOf(s, sep);
    if i == |s| then [s] else [s[..i]] + Split(s[i + 1..], sep)
  }

  lemma FirstIndexAfterPrefix(a: string, sep: char, b: string)
    requires sep !in a
    ensures FirstIndexOf(a + [sep] + b, sep) == |a|
  {
    var s := a + [sep] + b;
    assert forall j :: 0 <= j < |a| ==> s[j] == a[j];
    assert s[|a|] == sep;
  }

  lemma {:induction false} SplitJoin(parts: seq<string>, sep: char)
    requires |parts| > 0
    requires forall i :: 0 <= i < |parts| ==> sep !in parts[i]
    ensures Split(Join(parts, sep), sep) == parts
  {
    if |parts| == 1 {
      assert forall j :: 0 <= j < |parts[0]| ==> parts[0][j] != sep;
    } else {
      var rest := Join(parts[1..], sep);
      var s := parts[0] + [sep] + rest;
      FirstIndexAfterPrefix(parts[0], sep, rest);
      assert s[..|parts[0]|] == parts[0];
      assert s[|parts[0]| + 1..] == rest;
      SplitJoin(parts[1..], sep);
      assert parts == [parts[0]] + parts[1..];
    }
  }

  function Fields(ps: seq<Param>): (fs: seq<string>)
    ensures |fs| == |ps|
  {
    if ps == [] then [] else [ps[0].key + "=" + ps[0].value] + Fields(ps[1..])
  }

  /** The text after `?`: `k1=v1&k2=v2&...`. */
  function RenderQuery(ps: seq<Param>): string {
    Join(Fields(ps), '&')
  }

  /** A request URL: the endpoint, `?`, then the query. */
  function RenderUrl(endpoint: string, ps: seq<Param>): string {
    endpoint + "?" + RenderQuery(ps)
  }

  /** The query part of a URL: everything after the first `?`, or nothing. */
  function QueryPart(url: string): string {
    var i := FirstIndexOf(url, '?');
    if i == |url| then "" else url[i + 1..]
  }

  lemma QueryPartOfUrl(endpoint: string, ps: seq<Param>)
    requires '?' !in endpoint
    ensures QueryPart(RenderUrl(endpoint, ps)) == RenderQuery(ps)
  {
    var url := RenderUrl(endpoint, ps);
    assert url[|endpoint|] == '?';
    assert forall j :: 0 <= j < |endpoint| ==> url[j] == endpoint[j];
    assert url[|endpoint| + 1..] == RenderQuery(ps);
  }

  function ParseParam(f: string): Param {
    var i := FirstIndexOf(f, '=');
    if i == |f| then Param(f, "") else Param(f[..i], f[i + 1..])
  }

  function ParseFields(fs: seq<string>): (ps: seq<Param>)
    ensures |ps| == |fs|
  {
    if fs == [] then [] else [ParseParam(fs[0])] + ParseFields(fs[1..])
  }

  function ParseQuery(q: string): seq<Param> {
    if q == "" then [] else ParseFields(Split(q, '&'))
  }

  /** A parameter whose key and value can travel in a query string unambiguously. */
  predicate Unambiguous(p: Param) {
    '&' !in p.key && '=' !in p.key && '&' !in p.value
  }

  lemma {:induction false} FieldsHaveNoAmpersand(ps: seq<Param>)
    requires forall i :: 0 <= i < |ps| ==> Unambiguous(ps[i])
    ensures forall i :: 0 <= i < |ps| ==> '&' !in Fields(ps)[i]
  {
    if ps != [] {
      FieldsHaveNoAmpersand(ps[1..]);
      var f := ps[0].key + "=" + ps[0].value;
      var k, v := ps[0].key, ps[0].value;
      forall j | 0 <= j < |f| ensures f[j] != '&' {
        if j < |k| {
          assert f[j] == k[j] && k[j] in k;
        } else if j > |k| {
          assert f[j] == v[j - |k| - 1] && v[j - |k| - 1] in v;
        }
      }
    }
  }

  lemma {:induction false} ParseFieldsOfFields(ps: seq<Param>)
    requires forall i :: 0 <= i < |ps| ==> Unambiguous(ps[i])
    ensures ParseFields(Fields(ps)) == ps
  {
    if ps != [] {
      ParseFieldsOfFields(ps[1..]);
      var p := ps[0];
      var f := p.key + "=" + p.value;
      FirstIndexAfterPrefix(p.key, '=', p.value);
      assert f[..|p.key|] == p.key;
      assert f[|p.key| + 1..] == p.value;
    }
  }

  /** Reading back a rendered query gives the same parameters, in the same order. */
  lemma ParseRenderQuery(ps: seq<Param>)
    requires forall i :: 0 <= i < |ps| ==> Unambiguous(ps[i])
    ensures ParseQuery(RenderQuery(ps)) == ps
  {
    if ps != [] {
      FieldsHaveNoAmpersand(ps);
      SplitJoin(Fields(ps), '&');
      var f0 := ps[0].key + "=" + ps[0].value;
      assert RenderQuery(ps) != "" by {
        assert |Fields(ps)| == 1 ==> RenderQuery(ps) == f0;
        assert |Fields(ps)| > 1 ==> RenderQuery(ps) == f0 + ['&'] + Join(Fields(ps)[1..], '&');
      }
      ParseFieldsOfFields(ps);
    }
  }

  /** The value of the first parameter named `key`. */
  function Lookup(ps: seq<Param>, key: string): Option<string> {
    if ps == [] then None
    else if ps[0].key == key then Some(ps[0].value)
    else Lookup(ps[1..], key)
  }

  function Keys(ps: seq<Param>): (ks: seq<string>)
    ensures |ks| == |ps|
    ensures forall i :: 0 <= i < |ps| ==> ks[i] == ps[i].key
  {
    if ps == [] then [] else [ps[0].key] + Keys(ps[1..])
  }
}

=== FILE: wrappers.dfy ===
/** Optional values: the model's reading of TypeScript's `undefined` and `null`. */
module Wrappers {

  /** `None` stands for an absent (`undefined`) or `null` value. */
  datatype Option<+T> = None | Some(value: T) {

    /** The wrapped value, or `default` when absent. */
    function GetOr(default: T): T {
      match this
      case Some(v) => v
      case None => default
    }
  }
}
